=== FILE: README.md ===
# Timetable web app: agenda, month picker and sortable list

This project models the decision logic of three components of a school
timetable web app in Dafny, and proves properties about it:

- **The agenda page** shows six day columns of lessons. Its `Previous` and
  `Next` buttons step over Sundays, and over Saturdays that have no lesson. A
  `Goto` jumps to a date. The page also decides which six days to show
  (Monday to Saturday of the selected week on desktop, and the selected day
  two columns in on mobile). It decides which events each column lists (an
  events list sorted by start time is searched for the day's midnight) and
  whether the mobile layout has room for an announcement between 18:30 and
  20:00 on the third column.
- **The month picker** ("calendar") is folded by default. Folded, it steps a
  week at a time. Unfolded, it steps a month at a time and shows a Monday-first
  grid of the month, in which Sundays are greyed out. Every move is forwarded
  to the agenda as a `Goto`.
- **The sortable list** is a drag-and-drop list. It keeps a permutation of
  its items and starts a drag on the item under the pointer. While an item is
  dragged, it moves the other items out of the way. On release, it reorders
  the items by their on-screen position.

Dates are a self-contained proleptic Gregorian model (`Dates`). A date's day
number is the count chrono calls `num_days_from_ce`: 0001-01-01 is day 1,
and that day is a Monday. The agenda keeps its selected day as such a number.
Timestamps are Unix seconds, and the Europe/Paris clock is a fixed UTC offset
of 3600 or 7200 seconds. Screen coordinates are integers.

Where the source's code differs from what it evidently intends (see "## Findings"), both versions are modelled. `AgendaView.View` and `Calendar.View` are built from the corrected pieces. `AgendaView.ViewAsWritten` and `Calendar.ViewAsWritten` are the pages the code renders as written, and lemmas relate each pair.

Files:

- `options.dfy`: `Option`
- `dates.dfy`: calendar arithmetic
- `names.dfy`: French day and month names, number formatting
- `events.dfy`: the sorted event list, Rust's `binary_search_by_key`, and lower bound
- `agenda.dfy`: the agenda's state, start-up and navigation
- `agenda_view.dfy`: the agenda's `view`
- `calendar.dfy`: the month picker
- `sortable.dfy`: the sortable list

## Model

| member | source | states |
|---|---|---|
| Dates.DaysInMonth | src/calendar.rs:141 | every month has between 28 and 31 days |
| Dates.FromYmd | src/agenda.rs:166 | `ymd` succeeds exactly on a real calendar date and then builds that date; otherwise it is the panic (`None`) |
| Dates.SuccSpec | src/agenda.rs:153-159 | `succ` gives a valid date whose day number is one more |
| Dates.PredSpec | src/agenda.rs:141-145 | `pred` gives a valid date whose day number is one less |
| Dates.DateOfSpec | src/agenda.rs:312-314 | every day number has a valid date carrying that number, which is how day, month and year are read off the selected day |
| Dates.AddDays | src/calendar.rs:91 | adding a `Duration::days(n)` gives a valid date exactly n day numbers later |
| Dates.WeekdayShift | src/agenda.rs:221 | the weekday moves on by k modulo 7 when the day number moves on by k |
| Dates.DayNumberInjective | src/agenda.rs:296 | two valid dates with the same day number are the same date, so comparing days by number is comparing dates |
| Dates.PredSucc | src/agenda.rs:141-159 | `pred` undoes `succ` and `succ` undoes `pred` |
| Dates.DateOfDayNumber | src/agenda.rs:166-167 | going from a date to its day number and back gives the date |
| Dates.AddDaysInverse | src/calendar.rs:91-104 | a week forward and a week back return to the start date |
| Names.DayName | src/agenda.rs:4-12 | each weekday has a non-empty French name without spaces |
| Names.MonthName | src/calendar.rs:124-138 | the twelve French month names exist exactly for months 1..12, and none is empty or contains a space |
| Names.ParseNatToString | src/agenda.rs:14 | the decimal digits written for a day of the month read back as that number |
| Names.FormatDay | src/agenda.rs:3-15 | `format_day` is the weekday's French name, one space, then the digits of the day |
| Names.FormatDayInjective | src/agenda.rs:3-15 | two headings are equal only for the same weekday and the same day |
| Names.ParseIntToString | src/calendar.rs:124-138 | the year written in the title reads back as that year, negative years included |
| Names.MonthTitle | src/calendar.rs:124-138 | the title exists exactly for months 1..12 and is the month name, a space and the year |
| Names.MonthTitleInjective | src/calendar.rs:124-138 | different months or years never share a title |
| Events.BinarySearch | src/agenda.rs:270-273 | `Ok(i)` points at an event starting exactly at the key; `Err(i)` is a position where every earlier event starts before the key and every later one after it |
| Events.SearchRange | src/agenda.rs:270-273 | the halving search keeps every event before the window starting before the key and every event after it starting after the key |
| Events.LowerBoundSpec | src/agenda.rs:270-273 | the lower bound splits a sorted list into events starting before the key and events starting at or after it |
| Events.NotFoundIsLowerBound | src/agenda.rs:270-273 | when no event starts at the key, the search's `Err` index is the lower bound |
| Events.FoundIffPresent | src/agenda.rs:234-237 | the search reports `Ok` exactly when some event starts at the key |
| Events.TakeUntilSpec | src/agenda.rs:274-288 | the column loop lists events from its start index in order and stops at the first one starting after the limit |
| Events.StartingWithinMembers | src/agenda.rs:274-277 | an event belongs to a column's selection exactly when it is in the list and starts within the day |
| Agenda.Create | src/agenda.rs:86-101 | start-up selects today, puts the slider on it, and schedules one `Next` exactly when it is 19:00 or later, Sunday, or a Saturday with no lesson |
| Agenda.NextDay | src/agenda.rs:150-160 | `Next` goes Saturday to Monday (+2), Sunday to Thursday one day on, Friday to Monday (+3) when Saturday has no lesson and to Saturday otherwise; it never lands on a Sunday |
| Agenda.PreviousDay | src/agenda.rs:138-146 | `Previous` goes back one day except from Monday, which goes to Friday (-3) when the previous Saturday has no lesson and to Saturday (-2) otherwise; it never lands on a Sunday |
| Agenda.Update | src/agenda.rs:138-169 | `Next` and `Previous` always succeed, `Goto` fails exactly on an invalid date and otherwise selects that date, and the slider offset is -20 times (day number - 730000) afterwards |
| Agenda.NextLandsOnNavigableDay | src/agenda.rs:150-160 | from any day, `Next` stops on a day the buttons may stop on: never Sunday, and Saturday only when it has a lesson |
| Agenda.PreviousKeepsNavigable | src/agenda.rs:138-146 | from such a day, `Previous` stops on another one |
| Agenda.NextPreviousInverse | src/agenda.rs:138-160 | on those days `Previous` undoes `Next` and `Next` undoes `Previous` |
| Agenda.PreviousAfterNext | src/agenda.rs:138-160 | `Previous` after `Next` returns to the start day |
| Agenda.NextAfterPrevious | src/agenda.rs:138-160 | `Next` after `Previous` returns to the start day |
| Agenda.StartupShowsNavigableDay | src/agenda.rs:86-96 | after start-up and its scheduled `Next`, the selected day is one the buttons may stop on |
| AgendaView.AsU64 | src/agenda.rs:269 | `as u64` keeps a non-negative timestamp and adds 2^64 to a negative one |
| AgendaView.FirstDay | src/agenda.rs:217-224 | the first column is the selection minus two on mobile, and the Monday of the selection's week on desktop |
| AgendaView.ColumnEvents | src/agenda.rs:268-288 | a column lists exactly the events starting between its midnight and the next midnight inclusive, in list order (corrected start) |
| AgendaView.SliceIsStartingWithin | src/agenda.rs:274-277 | in a sorted list, the events between the two cut points are exactly those starting within the day |
| AgendaView.Cutoff | src/agenda.rs:249 | `announcement_start - 6*3600` on `u64` is the 6-hour look-back, wrapping modulo 2^64 |
| AgendaView.BackScan | src/agenda.rs:243-253 | the backward scan finds an event ending in the slot exactly when one lies before the scan stops at an event ending before the look-back |
| AgendaView.SlotHidden | src/agenda.rs:226-258 | the announcement is hidden exactly when an event starts in the 18:30-20:00 slot or one the scan reaches ends in it (corrected scan) |
| AgendaView.StartsInSlotAt | src/agenda.rs:234-241 | when no event starts at 18:30, an event starts in the slot exactly when the one at the insertion point does |
| AgendaView.SlotBounds | src/agenda.rs:230-232 | the slot runs from 18:30 to 20:00 local time of the given day, `as u64`, a 90-minute range |
| AgendaView.SlotFromMidnight | src/agenda.rs:230-232 | for a day after 1970-01-01 the slot is 18:30 and 20:00 past the day's local midnight |
| AgendaView.MakeColumn | src/agenda.rs:265-306 | a column is marked selected exactly on the selected day and lists that day's events |
| AgendaView.Columns | src/agenda.rs:263-307 | exactly six columns, the d-th being that of the first day plus d |
| AgendaView.View | src/agenda.rs:214-307 | (corrected: uses `ColumnEvents` and `SlotHidden`) the page shows the six columns from `FirstDay`, and the mobile announcement exactly when there is one, the layout is mobile and its slot is free |
| AgendaView.ColumnEventsAsWritten | src/agenda.rs:270-288 | as written, a column lists the events starting within the day among those from the index the search reports |
| AgendaView.MakeColumnAsWritten | src/agenda.rs:265-306 | as written, the column of a day is marked exactly on the selected day and lists the events starting within that day among those from the index the search reports |
| AgendaView.ColumnStartNotBefore | src/agenda.rs:270-273 | from the index the search reports on, no event starts before midnight |
| AgendaView.TakeUntilIsStartingWithin | src/agenda.rs:274-288 | from a point past which nothing starts before the day, the loop lists exactly the remaining events starting within the day |
| AgendaView.ColumnsAsWritten | src/agenda.rs:263-307 | as written, exactly six columns, the d-th being the source's column of the first day plus d |
| AgendaView.ViewAsWritten | src/agenda.rs:214-307 | the page as the source renders it: the source's columns from `FirstDay`, and the announcement exactly when the layout is mobile, there is one, and the source's slot check leaves the slot free |
| AgendaView.ColumnsAsWrittenAgainstColumns | src/agenda.rs:265-288 | the source's columns have the corrected days and selection, each listing a suffix of the corrected events that lacks only midnight starts, and are the corrected columns when no two events share a start |
| AgendaView.ColumnsAsWrittenEqual | src/agenda.rs:265-288 | when no two events share a start, the source's columns are the corrected ones |
| AgendaView.AnnouncementAsWritten | src/agenda.rs:226-258 | the source shows the announcement whenever the corrected check does, decides it alike whenever some event starts at or after 18:30, and on mobile always shows it when every event starts before 18:30 |
| AgendaView.ViewAsWrittenAgainstView | src/agenda.rs:214-307 | the source's page shows the announcement whenever the corrected page does, and is the corrected page when no two events share a start and some event starts at or after 18:30 |
| AgendaView.DesktopShowsMondayToSaturday | src/agenda.rs:218-224 | on desktop the columns run Monday to Saturday of the selected week, and one of them is selected exactly when the selection is not a Sunday |
| AgendaView.WeekColumns | src/agenda.rs:221-224 | from a Monday, column d shows the weekday d days after Monday |
| AgendaView.MondayWeek | src/agenda.rs:221-223 | the six days from a Monday are Monday to Saturday, and a day of that week is outside them exactly when it is Sunday |
| AgendaView.WeekdaysDistinct | src/agenda.rs:295-299 | days fewer than seven apart fall on different weekdays |
| AgendaView.Heading | src/agenda.rs:297 | a column's heading is `format_day` of the weekday and day of the month of the date carrying the column's day number |
| AgendaView.MobileSelectsThirdColumn | src/agenda.rs:218-224 | on mobile the selected day is the third column and no other |
| AgendaView.HeadingsDistinct | src/agenda.rs:295-299 | so no two of the six column headings are equal |
| AgendaView.ColumnStartAsWritten | src/agenda.rs:270-273 | the contract only bounds the index the search reports, `Ok` or `Err`, by the list's length; `AgendaView.ColumnStartNotBefore` and `AgendaView.ColumnEventsAsWrittenIsSuffix` state what starting there means |
| AgendaView.ColumnEventsAsWrittenIsSuffix | src/agenda.rs:270-288 | what the source lists is a suffix of the full column, missing only events starting exactly at midnight, and it is the full column when no two events share a start |
| AgendaView.TakeUntilFrom | src/agenda.rs:274-288 | starting the loop later within a run of listed events drops exactly that prefix |
| AgendaView.ColumnDropsFirstOfTwoAtMidnight | src/agenda.rs:270-273 | two events both starting at midnight: the source lists only the second |
| AgendaView.SlotHiddenAsWritten | src/agenda.rs:238-243 | the check as written never hides wrongly, agrees with the corrected one whenever some event starts at or after 18:30, and never hides when every event starts before 18:30, whatever those events' ends |
| AgendaView.SlotMissesLastEvent | src/agenda.rs:239-243 | on 1970-01-01 in CET, a last event ending inside the evening slot does not hide the announcement as written, while the corrected check hides it |
| Calendar.Create | src/calendar.rs:50-56 | the picker starts folded on the agenda's selected date |
| Calendar.LastDayOfMonth | src/calendar.rs:82 | the day before the 1st of the following month is the month's length, including December, where the 1st of January of the same year is used |
| Calendar.Update | src/calendar.rs:59-119 | folded `Next`/`Previous` fail only on an invalid date and leave the picker unchanged; unfolded, they send the agenda a `Goto` to the newly selected date; `TriggerFold` only toggles folding and sends nothing; `Goto` selects the date and forwards it to the agenda |
| Calendar.WeekStep | src/calendar.rs:90-105 | a folded step sends the picker a `Goto` to the date 7 days later or earlier |
| Calendar.MonthNextIsFirstOfNextMonth | src/calendar.rs:61-74 | from an existing date, unfolded `Next` selects an existing date: day 1 of the month that follows the current month's last day (December rolls over to January of the next year) |
| Calendar.MonthPreviousIsLastOfPreviousMonth | src/calendar.rs:75-89 | from an existing date, unfolded `Previous` selects the existing date right before the 1st of the current month, which is the last day of the previous month (January rolls back to December of the previous year) |
| Calendar.AgendaGetsValidDates | src/calendar.rs:60-111 | from an existing date, `Next`, `Previous` and `TriggerFold` always succeed, keep an existing date, and every `Goto` they forward to the agenda names an existing date |
| Calendar.Handle | src/calendar.rs:90-105 | a message with the `Goto` the picker sends itself fails exactly when the message does and leaves nothing more to send itself; folded, `Next` and `Previous` end on the date 7 days later or earlier, sent to the agenda |
| Calendar.MonthStepsInverse | src/calendar.rs:61-89 | unfolded, `Previous` after `Next` returns to the same month on its last day, and `Next` after `Previous` to the same month on its 1st |
| Calendar.WeekNextSameWeekday | src/calendar.rs:90-97 | a folded `Next` with its `Goto` selects the date a week later, on the same weekday |
| Calendar.WeekStepsInverse | src/calendar.rs:90-111 | a folded `Next` then `Previous` returns to the start date |
| Calendar.SundayTarget | src/calendar.rs:153-157 | (corrected) a Sunday cell sends the day before: the source's target from the 2nd on, the previous month's last day on the 1st, and 31 December of the year before on 1 January |
| Calendar.SundayTargetAsWritten | src/calendar.rs:154 | as written, a Sunday cell sends the day number one less in the same month and year, which names no date on the 1st |
| Calendar.SundayTargetIsDayBefore | src/calendar.rs:153-157 | a Sunday cell sends the agenda to the day before it, always a valid date (corrected target) |
| Calendar.CellOf | src/calendar.rs:149-164 | a day cell shows its day and is marked exactly on the selected day |
| Calendar.CellTargets | src/calendar.rs:152-161 | a day cell is greyed out exactly on a Sunday; a weekday cell sends `Goto` to itself, and a Sunday cell sends `day - 1` of the same month as written and the corrected target otherwise |
| Calendar.CellTargetValid | src/calendar.rs:153-161 | a corrected day cell sends an existing date, and a Sunday cell the one numbered one less than its day |
| Calendar.GridCellTarget | src/calendar.rs:149-161 | in the corrected grid, the cell of day k at position lead + k - 1 sends day k itself on a weekday, and on a Sunday the existing date right before it |
| Calendar.DayCells | src/calendar.rs:149-164 | the day cells of days k to the month's last day, one per day |
| Calendar.DayCellsInOrder | src/calendar.rs:149-164 | the k-th day cell is that of day k, for every day of the month in order |
| Calendar.PadToWeek | src/calendar.rs:165-169 | fewer than seven trailing blanks complete the last week |
| Calendar.Layout | src/calendar.rs:144-169 | leading blanks step back a month, then the days in order, then trailing blanks that step on, in whole weeks |
| Calendar.Grid | src/calendar.rs:140-169 | the grid exists exactly for months 1..12 |
| Calendar.GridLayout | src/calendar.rs:140-169 | one blank per weekday before the 1st, day k at position lead + k - 1, and blanks up to the end of the last week |
| Calendar.SundayColumn | src/calendar.rs:152-153 | a day is a Sunday, and its cell greyed out, exactly when it falls in the seventh column |
| Calendar.GridShape | src/calendar.rs:144-169 | a month takes at most six weeks, and a day cell is greyed out exactly in the Sunday column |
| Calendar.GridTargetsValid | src/calendar.rs:149-164 | every date a grid cell sends is valid (corrected grid) |
| Calendar.DayTargetsValid | src/calendar.rs:149-164 | every date a corrected day cell sends is valid |
| Calendar.SundayFirstSendsDayZero | src/calendar.rs:153-157 | January 2023 starts on a Sunday, and as written its first cell sends day 0, which the agenda's `Goto` rejects |
| Calendar.SundayFirstSendsDayBefore | src/calendar.rs:153-157 | corrected, that cell sends 31 December 2022 |
| Calendar.SundayFirstCell | src/calendar.rs:149-157 | when the 1st is a Sunday the grid's seventh cell is the greyed-out 1st, with the target as written or corrected |
| Calendar.GridAsWrittenAgrees | src/calendar.rs:149-164 | the grid as written and the corrected one agree for every month whose 1st is not a Sunday |
| Calendar.GridAsWritten | src/calendar.rs:149-164 | the grid as written exists exactly for months 1..12 |
| Calendar.View | src/calendar.rs:123-176 | (corrected: uses `Grid`) the view exists exactly for months 1..12 and shows the month title and the grid |
| Calendar.ViewAsWritten | src/calendar.rs:123-176 | as written, the view exists exactly for months 1..12 and shows the month title and the source's grid |
| Calendar.ViewAsWrittenAgainstView | src/calendar.rs:149-164 | the source's page is the corrected page unless the 1st is a Sunday; then only the seventh cell differs, sending day 0 where the corrected one sends the day before |
| Calendar.LaterDaysAgree | src/calendar.rs:153-157 | from the 2nd of the month on, the source's day cells are the corrected ones |
| Calendar.LayoutDiffersOnlyAt | src/calendar.rs:144-169 | day lists differing only in their first cell lay out into grids of the same size that differ only at that cell's position |
| Calendar.Rows | src/calendar.rs:171-176 | the grid is cut into rows of seven cells in order, row r being cells 7r to 7r+6 |
| Sortable.Div2 | src/sortable/sortable.rs:71 | `/ 2` on `i32` truncates toward zero, for negative coordinates too |
| Sortable.SortKeyIsHalfBottom | src/sortable/sortable.rs:45 | the release key `(top + height) / 2` is half the bottom edge |
| Sortable.PermutationFacts | src/sortable/sortable.rs:30 | an order that is a permutation of 0..n-1 has length n, holds every index below n once, and holds nothing else |
| Sortable.InsertOrdered | src/sortable/sortable.rs:45 | inserting an item into an order sorted by (key, index) keeps it sorted |
| Sortable.SortIndices | src/sortable/sortable.rs:38-46 | the items sorted by key are a permutation of 0..n-1 ordered by key, with ties in index order |
| Sortable.OrderedUnique | src/sortable/sortable.rs:45-46 | two orders of the same items both sorted by (key, index) are equal |
| Sortable.ReleaseOrder | src/sortable/sortable.rs:38-46 | the release order is a permutation of the items with non-decreasing keys, and equal keys keep index order (a stable sort) |
| Sortable.StableSortIsReleaseOrder | src/sortable/sortable.rs:45-46 | any stable sort of the items by key is the release order |
| Sortable.Create | src/sortable/sortable.rs:29-31 | a new list shows the identity order, with no drag and reload counter 0 |
| Sortable.CreateValid | src/sortable/sortable.rs:30 | the identity order is a permutation |
| Sortable.Release | src/sortable/sortable.rs:36-49 | releasing clears the drag, and sends `ChangeOrder` with the release order exactly when a drag was in progress |
| Sortable.Update | src/sortable/sortable.rs:129-133 | `ChangeOrder` replaces the order and adds exactly 1 to the reload counter, changing nothing else |
| Sortable.ReleaseThenUpdate | src/sortable/sortable.rs:36-49 | releasing a drag and applying the `ChangeOrder` it sends leaves a valid state whose order is the release order, a permutation, with no drag and the reload counter one higher |
| Sortable.HitTest | src/sortable/sortable.rs:62-70 | the hit is an item whose rectangle contains the pointer, the last such item, and there is none exactly when no rectangle contains the pointer |
| Sortable.MouseDown | src/sortable/sortable.rs:54-76 | a press releases any drag, then records a drag exactly when the pointer is in some item: the last such item, the pointer's y, and each item's centre `(bottom + top) / 2` |
| Sortable.MouseDownValid | src/sortable/sortable.rs:54-76 | a press, and a release, keep the order a permutation and any recorded drag within the items |
| Sortable.Position | src/sortable/sortable.rs:93-95 | `position` finds the first place holding the item |
| Sortable.ShiftOf | src/sortable/sortable.rs:94-105 | the dragged item is left alone; a later item moves up exactly when the dragged bottom passes its centre, an earlier one moves down exactly when the dragged top passes its centre, by the dragged height |
| Sortable.MouseMove | src/sortable/sortable.rs:82-108 | a move does something exactly during a drag: the dragged item follows the pointer's offset since the grab, and item k gets exactly the shift `ShiftOf` gives it from its position and recorded centre |
| Sortable.ShiftedItemsAreContiguous | src/sortable/sortable.rs:94-105 | with centres increasing down the list, the items moved up form a block right after the dragged one and those moved down a block right before it |

## Left out

- Browser I/O is left out: DOM lookups, event listeners, `set_attribute`, html and template rendering, and the slider element. Only the integer decisions they feed into are modelled. Each `get_element_by_id(..).unwrap()` is taken to succeed, so the sortable list receives one rectangle per item.
- Timers and async are left out: the 500 ms delay before the start-up `Next`, intervals, `spawn_local`.
- Foreign calls with no visible logic are left out: colour sync, `reflectTheme`, API error handling, announcement fetching and selection, the popup and the message arms that only store data (`ScheduleSuccess`, `AnnouncementsSuccess`, `SetSelectedEvent`, `CloseAnnouncement`, `Refresh`, `FetchColors`, `PushColors`, `ApiFailure`).
- `has_event_on_day` is defined outside the core files and is not part of this model. It is a parameter of the agenda's navigation. The round-trip lemmas assume it gives the same answer about Saturday for any two days of one Monday-first week.
- Time zones: Europe/Paris is a fixed offset of 3600 or 7200 seconds over the six displayed days, so a daylight-saving switch inside the displayed week is not modelled. `Local::now()` becomes the parameters `today` and `hour`.
- Dates: chrono's supported year range and the `i32` overflow of a year are not modelled, and years are unbounded integers.
- The agenda's `u32` day arguments are naturals. The timestamps' `u64` arithmetic wraps only where the source's values can reach it (`as u64`, the 6-hour look-back). `day_start + 24*3600` is taken not to overflow.
- Calendar.Update: in the unfolded `Previous` arm, `selected_month - 1` underflows at month 0. This is modelled as the wrap-around of a release build (month `u32::MAX`), not as the panic of a debug build. `selected_year ± 1` is not bounded to `i32`.
- Events.BinarySearch: the probing order is that of the Rust 1.52 to 1.81 standard library. Other releases may report another index among events with equal starts. The contract promises only some matching index.
- AgendaView.BackScan: at index 0 the `usize` `idx -= 1` of the announcement scan underflows. This is modelled as the wrap-around of a release build, where `get(usize::MAX)` finds nothing and the scan ends, not as the panic of a debug build.
- Names.DayName: the `t(..)` translation around day and month names is not modelled; the French labels are used as they are.
- AgendaView.View: the event list is required to be sorted by start time, as the binary searches assume. The source never checks this on the list it receives from the API.
- Sortable.Update: the reload counter is unbounded; the `usize` overflow of `reload_id += 1` is not modelled.
- The sortable list's random element id, the `changed` re-creation and `Drop` are left out. The `f64`-to-`i32` casts of rectangle coordinates are left out: coordinates are integers from the start, so `height` is `bottom - top`.
- Sortable.MouseMove: the `style` strings are not modelled, only the classification they encode. The `0.5rem` gap is not represented in the shift amounts.
- The mousedown/mousemove/mouseup listeners are modelled as pure functions of the state and the rectangles read at that moment. The sortable list's `view` is not modelled.
- The calendar's outside-click handler (a `TriggerFold` on a click outside the open picker) is geometry on `f64` rectangles and is not modelled.

## Findings

| source | as written | input that shows it | evidently intended | confidence | as-written member | corrected member |
|---|---|---|---|---|---|---|
| src/agenda.rs:270-273 | a column starts at whatever index `binary_search_by_key` returns, and on `Ok` that may be any of several events starting exactly at midnight | events `[(start 0, end 3600), (start 0, end 7200)]` and a column whose midnight is 0: the search probes index 1, so the first event is not listed | start at the first event starting at or after midnight (the lower bound) | not executed | AgendaView.ColumnEventsAsWritten, AgendaView.ColumnDropsFirstOfTwoAtMidnight, AgendaView.ColumnEventsAsWrittenIsSuffix, AgendaView.ViewAsWritten | AgendaView.ColumnEvents, AgendaView.View |
| src/agenda.rs:238-243 | when every event starts before 18:30, the insertion index equals the length, `events.get(idx)` is `None`, and the backward scan over earlier events never runs | one event from 18:00 to 19:00 CET on 1970-01-01 (seconds 61200-64800) and that evening's CET slot 18:30-20:00 (seconds 63000-68400, from `SlotBounds`): the event ends inside the slot, yet the announcement is shown | scan back from the last event when the insertion index is past the end | not executed | AgendaView.SlotHiddenAsWritten, AgendaView.SlotMissesLastEvent, AgendaView.ViewAsWritten | AgendaView.SlotHidden, AgendaView.View |
| src/calendar.rs:153-157 | a Sunday cell sends `Goto` with `day - 1` in the same month and year, so a month starting on a Sunday sends day 0 | January 2023, whose 1st is a Sunday: the first cell sends `Goto(0, 1, 2023)`, and the agenda's `Paris.ymd(2023, 1, 0)` panics | send the day before, which for the 1st is the last day of the previous month | not executed | Calendar.SundayTargetAsWritten, Calendar.SundayFirstSendsDayZero, Calendar.ViewAsWritten | Calendar.SundayTarget, Calendar.SundayFirstSendsDayBefore, Calendar.GridTargetsValid, Calendar.View |

=== FILE: agenda.dfy ===
/** The agenda page's state and messages: day navigation (`update`) and
    the startup auto-advance (`create`). A day is its `num_days_from_ce`
    number, as `Dates.DayNumber` gives it. */
module Agenda {
  import opened Options
  import opened Dates
  import opened Events

  /** `has_event_on_day(&events, day, weekday)`, whose body is not part of
      this model: whether the events hold one on `weekday` near `day`. */
  type EventQuery = (seq<Event>, int, Weekday) -> bool

  datatype Agenda = Agenda(selectedDay: int, events: seq<Event>, sliderOffset: int)

  datatype Msg = Previous | Next | Goto(day: nat, month: nat, year: int)

  const SliderOrigin: int := 730000
  const SliderStep: int := -20

  /** The slider position a selected day puts the day strip at. */
  function SliderOffset(day: int): int {
    SliderStep * (day - SliderOrigin)
  }

  /** The slider shows the selected day. */
  predicate Wf(a: Agenda) {
    a.sliderOffset == SliderOffset(a.selectedDay)
  }

  function WeekdayIndex(day: int): nat {
    NumDaysFromMonday(WeekdayOfDay(day))
  }

  /** A day the navigation buttons may stop on: never a Sunday, and a
      Saturday only when that Saturday has an event. */
  predicate Navigable(day: int, events: seq<Event>, hasEventOnDay: EventQuery) {
    && WeekdayOfDay(day) != Sun
    && (WeekdayOfDay(day) == Sat ==> hasEventOnDay(events, day, Sat))
  }

  /** Day number of the Monday starting the week of `day`. */
  function WeekStart(day: int): int {
    day - WeekdayIndex(day)
  }

  /** The query gives the same answer about Saturday for every reference
      day of one Monday-to-Sunday week (what `has_event_on_day` is used as). */
  ghost predicate WeekConsistent(events: seq<Event>, hasEventOnDay: EventQuery) {
    forall a: int, b: int {:trigger hasEventOnDay(events, a, Sat), hasEventOnDay(events, b, Sat)} ::
      WeekStart(a) == WeekStart(b) ==> hasEventOnDay(events, a, Sat) == hasEventOnDay(events, b, Sat)
  }

  // ---------------------------------------------------------------- create

  datatype Startup = Startup(agenda: Agenda, scheduleNext: bool)

  /** `create`: select today, place the slider on it, and schedule one `Next`
      when it is 19:00 or later or today is not a day the buttons stop on. */
  function Create(today: int, hour: nat, events: seq<Event>, hasEventOnDay: EventQuery): (r: Startup)
    ensures Wf(r.agenda) && r.agenda.selectedDay == today && r.agenda.events == events
    ensures r.scheduleNext <==> hour >= 19 || !Navigable(today, events, hasEventOnDay)
  {
    var weekday := WeekdayOfDay(today);
    var hasEvent := hasEventOnDay(events, today, Sat);
    Startup(Agenda(today, events, SliderOffset(today)),
            hour >= 19 || weekday == Sun || (weekday == Sat && !hasEvent))
  }

  // ------------------------------------------------------------ navigation

  /** `Next`: Saturday goes to Monday, Friday to Saturday only when that
      Saturday has an event (else to Monday), every other day one ahead. */
  function NextDay(day: int, events: seq<Event>, hasEventOnDay: EventQuery): (r: int)
    ensures WeekdayOfDay(r) != Sun
    ensures WeekdayOfDay(day) == Sat ==> r == day + 2 && WeekdayOfDay(r) == Mon
    ensures WeekdayOfDay(day) != Fri && WeekdayOfDay(day) != Sat ==> r == day + 1
    ensures WeekdayOfDay(day) == Fri && !hasEventOnDay(events, day, Sat) ==> r == day + 3 && WeekdayOfDay(r) == Mon
    ensures WeekdayOfDay(day) == Fri && hasEventOnDay(events, day, Sat) ==> r == day + 1 && WeekdayOfDay(r) == Sat
  {
    var w := WeekdayOfDay(day);
    var r :=
      if w == Sat then day + 1 + 1
      else if w != Fri then day + 1
      else if !hasEventOnDay(events, day, Sat) then day + 1 + 1 + 1
      else day + 1;
    WeekdayShift(day, r - day);
    r
  }

  /** `Previous`: Monday goes back to Friday, or to Saturday when the
      Saturday just before has an event (looked up from the day a week
      earlier); every other day one back. */
  function PreviousDay(day: int, events: seq<Event>, hasEventOnDay: EventQuery): (r: int)
    ensures WeekdayOfDay(r) != Sun
    ensures WeekdayOfDay(day) != Mon ==> r == day - 1
    ensures WeekdayOfDay(day) == Mon && !hasEventOnDay(events, day - 7, Sat) ==> r == day - 3 && WeekdayOfDay(r) == Fri
    ensures WeekdayOfDay(day) == Mon && hasEventOnDay(events, day - 7, Sat) ==> r == day - 2 && WeekdayOfDay(r) == Sat
  {
    var prevWeek := day - 7;
    var r :=
      if WeekdayOfDay(day) != Mon then day - 1
      else if !hasEventOnDay(events, prevWeek, Sat) then day - 1 - 1 - 1
      else day - 1 - 1;
    WeekdayShift(day, r - day);
    r
  }

  /** `update` for `Previous`, `Next` and `Goto`; `None` is the panic of
      `Paris.ymd` on a date that does not exist. Every arm re-centres the
      slider on the new selected day. */
  function Update(a: Agenda, msg: Msg, hasEventOnDay: EventQuery): (r: Option<Agenda>)
    ensures r.None? <==> msg.Goto? && !Valid(Date(msg.year, msg.month, msg.day))
    ensures r.Some? ==> Wf(r.value) && r.value.events == a.events
    ensures msg.Goto? && r.Some? ==> DateOf(r.value.selectedDay) == Date(msg.year, msg.month, msg.day)
    ensures msg.Next? ==> r.Some? && r.value.selectedDay == NextDay(a.selectedDay, a.events, hasEventOnDay)
    ensures msg.Previous? ==> r.Some? && r.value.selectedDay == PreviousDay(a.selectedDay, a.events, hasEventOnDay)
  {
    match msg
    case Previous =>
      var d := PreviousDay(a.selectedDay, a.events, hasEventOnDay);
      Some(Agenda(d, a.events, SliderOffset(d)))
    case Next =>
      var d := NextDay(a.selectedDay, a.events, hasEventOnDay);
      Some(Agenda(d, a.events, SliderOffset(d)))
    case Goto(day, month, year) =>
      match FromYmd(year, month, day)
      case None => None
      case Some(date) =>
        DateOfDayNumber(date);
        Some(Agenda(DayNumber(date), a.events, SliderOffset(DayNumber(date))))
  }

  /** b lies in the week of a when it is no further from a than the rest of that week. */
  lemma SameWeekFrom(a: int, b: int)
    requires 0 <= WeekdayIndex(a) + (b - a) < 7
    ensures WeekStart(a) == WeekStart(b)
  {
    WeekdayShift(a, b - a);
  }

  /** Whatever day is selected, `Next` stops on a day the buttons may stop on. */
  lemma NextLandsOnNavigableDay(day: int, events: seq<Event>, hasEventOnDay: EventQuery)
    requires WeekConsistent(events, hasEventOnDay)
    ensures Navigable(NextDay(day, events, hasEventOnDay), events, hasEventOnDay)
  {
    var r := NextDay(day, events, hasEventOnDay);
    if WeekdayOfDay(r) == Sat {
      WeekdayShift(day, r - day);
      SameWeekFrom(day, r);
      assert hasEventOnDay(events, day, Sat);
    }
  }

  /** From a day the buttons may stop on, `Previous` stops on another one. */
  lemma PreviousKeepsNavigable(day: int, events: seq<Event>, hasEventOnDay: EventQuery)
    requires Navigable(day, events, hasEventOnDay) && WeekConsistent(events, hasEventOnDay)
    ensures Navigable(PreviousDay(day, events, hasEventOnDay), events, hasEventOnDay)
  {
    var r := PreviousDay(day, events, hasEventOnDay);
    WeekdayShift(day, r - day);
    if WeekdayOfDay(r) == Sat {
      WeekdayShift(day, -7);
      SameWeekFrom(day - 7, r);
      assert hasEventOnDay(events, day - 7, Sat);
    }
  }

  /** On days the buttons may stop on, `Previous` undoes `Next` and `Next`
      undoes `Previous`. */
  lemma NextPreviousInverse(day: int, events: seq<Event>, hasEventOnDay: EventQuery)
    requires Navigable(day, events, hasEventOnDay) && WeekConsistent(events, hasEventOnDay)
    ensures PreviousDay(NextDay(day, events, hasEventOnDay), events, hasEventOnDay) == day
    ensures NextDay(PreviousDay(day, events, hasEventOnDay), events, hasEventOnDay) == day
  {
    PreviousAfterNext(day, events, hasEventOnDay);
    NextAfterPrevious(day, events, hasEventOnDay);
  }

  lemma PreviousAfterNext(day: int, events: seq<Event>, hasEventOnDay: EventQuery)
    requires Navigable(day, events, hasEventOnDay) && WeekConsistent(events, hasEventOnDay)
    ensures PreviousDay(NextDay(day, events, hasEventOnDay), events, hasEventOnDay) == day
  {
    var n := NextDay(day, events, hasEventOnDay);
    WeekdayShift(day, n - day);
    if WeekdayOfDay(n) == Mon {
      WeekdayShift(n, -7);
      SameWeekFrom(n - 7, day);
      assert hasEventOnDay(events, n - 7, Sat) == hasEventOnDay(events, day, Sat);
    }
  }

  lemma NextAfterPrevious(day: int, events: seq<Event>, hasEventOnDay: EventQuery)
    requires Navigable(day, events, hasEventOnDay) && WeekConsistent(events, hasEventOnDay)
    ensures NextDay(PreviousDay(day, events, hasEventOnDay), events, hasEventOnDay) == day
  {
    var p := PreviousDay(day, events, hasEventOnDay);
    WeekdayShift(day, p - day);
    if WeekdayOfDay(p) == Fri {
      if WeekdayOfDay(day) == Mon {
        WeekdayShift(day, -7);
        SameWeekFrom(day - 7, p);
        assert hasEventOnDay(events, day - 7, Sat) == hasEventOnDay(events, p, Sat);
      } else {
        SameWeekFrom(p, day);
        assert hasEventOnDay(events, p, Sat) == hasEventOnDay(events, day, Sat);
      }
    }
  }

  /** After startup (and the scheduled `Next`, if any) the agenda shows a
      day the buttons may stop on. */
  lemma StartupShowsNavigableDay(today: int, hour: nat, events: seq<Event>, hasEventOnDay: EventQuery)
    requires WeekConsistent(events, hasEventOnDay)
    ensures var s := Create(today, hour, events, hasEventOnDay);
            var shown := if s.scheduleNext then NextDay(today, events, hasEventOnDay) else today;
            Navigable(shown, events, hasEventOnDay)
  {
    if Create(today, hour, events, hasEventOnDay).scheduleNext {
      NextLandsOnNavigableDay(today, events, hasEventOnDay);
    }
  }
}

=== FILE: agenda_view.dfy ===
/** The integer decisions of the agenda's `view`: which six days are shown,
    how each is labelled, which events each column holds, and whether the
    mobile layout has room for the announcement banner. */
module AgendaView {
  import opened Dates
  import opened Events
  import opened Agenda
  import Names

  const SecondsPerDay: int := 86400
  const U64Modulus: int := 0x1_0000_0000_0000_0000

  /** `t as u64` on an `i64` timestamp: two's-complement reinterpretation. */
  function AsU64(t: int): (r: nat)
    ensures r < U64Modulus
    ensures 0 <= t < U64Modulus ==> r == t
    ensures -U64Modulus <= t < 0 ==> r == t + U64Modulus
  {
    if 0 <= t < U64Modulus then t else if -U64Modulus <= t < 0 then t + U64Modulus else t % U64Modulus
  }

  /** The UTC offsets of Europe/Paris: CET and CEST. */
  predicate ParisOffset(utcOffset: int) {
    utcOffset == 3600 || utcOffset == 7200
  }

  /** A day whose timestamps fit an `i64` with room to spare. */
  predicate InTimestampRange(day: int) {
    -100_000_000_000 <= day - UnixEpochDay <= 100_000_000_000
  }

  /** `.and_hms(..).timestamp()`: Unix time of second `secondOfDay` of
      local day `day`, the local clock being `utcOffset` seconds ahead of UTC. */
  function LocalTimestamp(day: int, secondOfDay: int, utcOffset: int): int {
    (day - UnixEpochDay) * SecondsPerDay + secondOfDay - utcOffset
  }

  /** `current_day.and_hms(0,0,0).timestamp() as u64`. */
  function DayStart(day: int, utcOffset: int): nat {
    AsU64(LocalTimestamp(day, 0, utcOffset))
  }

  // ---------------------------------------------------------------- columns

  const ColumnCount: nat := 6

  /** The first displayed day: two days before the selection on mobile, the
      Monday of its week on desktop. */
  function FirstDay(selectedDay: int, mobile: bool): (r: int)
    ensures mobile ==> r == selectedDay - 2
    ensures !mobile ==> WeekdayOfDay(r) == Mon && r <= selectedDay <= r + 6
  {
    if mobile then selectedDay - 1 - 1
    else
      var back: int := NumDaysFromMonday(WeekdayOfDay(selectedDay));
      WeekdayShift(selectedDay, -back);
      selectedDay - back
  }

  /** The events a column lists, as corrected (see `ColumnEventsAsWritten`):
      from the first event starting at or after `dayStart`, up to the first
      one starting later than a day after it. */
  function ColumnEvents(events: seq<Event>, dayStart: nat): (r: seq<Event>)
    requires SortedByStart(events)
    ensures r == StartingWithin(events, dayStart, dayStart + SecondsPerDay)
  {
    var from := LowerBound(events, dayStart);
    var r := TakeUntil(events, from, dayStart + SecondsPerDay);
    LowerBoundSpec(events, dayStart);
    TakeUntilSpec(events, from, dayStart + SecondsPerDay);
    SortedTail(events, from + |r|, dayStart + SecondsPerDay);
    SliceIsStartingWithin(events, from, from + |r|, dayStart, dayStart + SecondsPerDay);
    r
  }

  /** In a list sorted by start, the events starting within [lo, hi] are the
      slice between the last one before `lo` and the first one after `hi`. */
  lemma SliceIsStartingWithin(events: seq<Event>, a: nat, b: nat, lo: nat, hi: nat)
    requires a <= b <= |events|
    requires forall i :: 0 <= i < a ==> events[i].start < lo
    requires forall i :: a <= i < b ==> lo <= events[i].start <= hi
    requires forall i :: b <= i < |events| ==> events[i].start > hi
    ensures StartingWithin(events, lo, hi) == events[a..b]
  {
    var before, within, after := events[..a], events[a..b], events[b..];
    assert events == before + within + after;
    forall i | 0 <= i < |before|
      ensures before[i].start < lo || before[i].start > hi
    {
      assert before[i] == events[i];
    }
    forall i | 0 <= i < |within|
      ensures lo <= within[i].start <= hi
    {
      assert within[i] == events[a + i];
    }
    forall i | 0 <= i < |after|
      ensures after[i].start < lo || after[i].start > hi
    {
      assert after[i] == events[b + i];
    }
    StartingWithinAppend(before + within, after, lo, hi);
    StartingWithinAppend(before, within, lo, hi);
    StartingWithinNone(before, lo, hi);
    StartingWithinAll(within, lo, hi);
    StartingWithinNone(after, lo, hi);
  }

  /** Past the first event starting after `hi`, every event does. */
  lemma SortedTail(events: seq<Event>, b: nat, hi: nat)
    requires SortedByStart(events) && b <= |events|
    requires b < |events| ==> events[b].start > hi
    ensures forall i :: b <= i < |events| ==> events[i].start > hi
  {
  }

  /** One column of the agenda: its day, whether it is the selected day,
      and its events. */
  datatype Column = Column(day: int, selected: bool, events: seq<Event>)

  /** The heading above the column of `day`: `format_day` of its weekday
      and day of the month. */
  function Heading(day: int): (h: string)
    ensures var d := DateOf(day);
            Valid(d) && DayNumber(d) == day && h == Names.FormatDay(WeekdayOf(d), d.day)
  {
    DateOfSpec(day);
    Names.FormatDay(WeekdayOfDay(day), DateOf(day).day)
  }

  // ----------------------------------------------------- mobile announcement

  const SlotStart: int := 66600   // 18:30
  const SlotEnd: int := 72000     // 20:00
  const Lookback: int := 21600    // six hours

  predicate InSlot(t: nat, s: nat, e: nat) {
    s <= t <= e
  }

  /** `announcement_start - 6*3600` on `u64`, wrapping as a release build does. */
  function Cutoff(s: nat): (r: nat)
    requires s < U64Modulus
    ensures r < U64Modulus
    ensures r + Lookback == s || r + Lookback == s + U64Modulus
  {
    if s >= Lookback then s - Lookback else s + U64Modulus - Lookback
  }

  /** Every event strictly after index i up to index j ends in the slot or
      no earlier than the cutoff: the backward scan passes them all. */
  predicate ScanReaches(events: seq<Event>, i: int, j: int, s: nat, e: nat, cutoff: nat)
    requires 0 <= i && j < |events|
  {
    forall k :: i < k <= j ==> InSlot(events[k].end, s, e) || events[k].end >= cutoff
  }

  /** The `while let Some(e) = events.get(idx)` scan down from index j
      (-1 is `usize::MAX` after `0 - 1` wraps, where `get` finds nothing):
      it hides the announcement on the first event ending in the slot and
      gives up on the first that ends before the cutoff. */
  function BackScan(events: seq<Event>, j: int, s: nat, e: nat, cutoff: nat): (hidden: bool)
    requires -1 <= j < |events|
    ensures hidden <==> exists i :: 0 <= i <= j && InSlot(events[i].end, s, e) && ScanReaches(events, i, j, s, e, cutoff)
    decreases j + 1
  {
    if j < 0 then false
    else if InSlot(events[j].end, s, e) then
      assert ScanReaches(events, j, j, s, e, cutoff);
      true
    else if events[j].end < cutoff then false
    else
      var r := BackScan(events, j - 1, s, e, cutoff);
      assert forall i :: 0 <= i < j ==> (ScanReaches(events, i, j, s, e, cutoff) <==> ScanReaches(events, i, j - 1, s, e, cutoff));
      r
  }

  /** Some event starts inside the slot. */
  predicate StartsInSlot(events: seq<Event>, s: nat, e: nat) {
    exists i :: 0 <= i < |events| && InSlot(events[i].start, s, e)
  }

  /** Some event starting before the slot ends inside it, and the backward
      scan from the last event starting before the slot gets to it. */
  predicate EndsInScannedSlot(events: seq<Event>, s: nat, e: nat)
    requires SortedByStart(events) && s < U64Modulus
  {
    var l := LowerBound(events, s);
    exists i :: 0 <= i < l && InSlot(events[i].end, s, e) && ScanReaches(events, i, l - 1, s, e, Cutoff(s))
  }

  /** Whether an event occupies the slot [s, e], as corrected (see
      `SlotHiddenAsWritten`): an event starting at `s` or right after it
      inside the slot, else the backward scan over the earlier events. */
  function SlotHidden(events: seq<Event>, s: nat, e: nat): (hidden: bool)
    requires SortedByStart(events) && s <= e < U64Modulus
    ensures hidden <==> StartsInSlot(events, s, e) || EndsInScannedSlot(events, s, e)
  {
    match BinarySearch(events, s)
    case Found(i) =>
      assert InSlot(events[i].start, s, e);
      true
    case NotFound(idx) =>
      NotFoundIsLowerBound(events, s);
      StartsInSlotAt(events, s, e, idx);
      (idx < |events| && InSlot(events[idx].start, s, e)) || BackScan(events, idx - 1, s, e, Cutoff(s))
  }

  /** When no event starts at `s`, an event starts in the slot exactly when
      the first one starting after `s` does. */
  lemma StartsInSlotAt(events: seq<Event>, s: nat, e: nat, idx: nat)
    requires SortedByStart(events) && idx <= |events|
    requires forall i :: 0 <= i < idx ==> events[i].start < s
    requires forall i :: idx <= i < |events| ==> events[i].start > s
    ensures StartsInSlot(events, s, e) <==> idx < |events| && InSlot(events[idx].start, s, e)
  {
    if StartsInSlot(events, s, e) {
      var i :| 0 <= i < |events| && InSlot(events[i].start, s, e);
      assert idx <= i;
    }
  }

  /** The slot of the mobile announcement on `day`, 18:30 to 20:00 local time. */
  function SlotBounds(day: int, utcOffset: int): (r: (nat, nat))
    requires InTimestampRange(day) && ParisOffset(utcOffset)
    ensures r.0 <= r.1 < U64Modulus
    ensures r.1 == r.0 + (SlotEnd - SlotStart)
    ensures r.0 == AsU64(LocalTimestamp(day, SlotStart, utcOffset))
    ensures r.1 == AsU64(LocalTimestamp(day, SlotEnd, utcOffset))
  {
    var t := LocalTimestamp(day, SlotStart, utcOffset);
    assert t < 0 ==> t + (SlotEnd - SlotStart) < 0;
    (AsU64(t), AsU64(LocalTimestamp(day, SlotEnd, utcOffset)))
  }

  /** After 1970-01-01 the slot is 18:30 to 20:00 past the day's local
      midnight. */
  lemma SlotFromMidnight(day: int, utcOffset: int)
    requires InTimestampRange(day) && ParisOffset(utcOffset) && day > UnixEpochDay
    ensures var r := SlotBounds(day, utcOffset);
            r.0 == DayStart(day, utcOffset) + SlotStart && r.1 == DayStart(day, utcOffset) + SlotEnd
  {
  }

  // ------------------------------------------------------------------- view

  datatype Page = Page(columns: seq<Column>, showAnnouncement: bool)

  /** The column of `day`: marked when it is the selected day, holding
      the events starting within it. */
  function MakeColumn(day: int, selectedDay: int, events: seq<Event>, utcOffset: int): (c: Column)
    requires SortedByStart(events)
    ensures c.day == day
    ensures c.selected <==> day == selectedDay
    ensures var start := DayStart(day, utcOffset);
            c.events == StartingWithin(events, start, start + SecondsPerDay)
  {
    Column(day, day == selectedDay, ColumnEvents(events, DayStart(day, utcOffset)))
  }

  /** The columns of `count` consecutive days from `first`: the `for d in
      0..6` loop. */
  function Columns(first: int, count: nat, selectedDay: int, events: seq<Event>, utcOffset: int): (cs: seq<Column>)
    requires SortedByStart(events)
    ensures |cs| == count
    ensures forall d :: 0 <= d < count ==> cs[d] == MakeColumn(first + d, selectedDay, events, utcOffset)
  {
    if count == 0 then []
    else Columns(first, count - 1, selectedDay, events, utcOffset) + [MakeColumn(first + count - 1, selectedDay, events, utcOffset)]
  }

  /** `view`: six consecutive days from `FirstDay`, and the mobile
      announcement when there is one and no event occupies its slot on the
      selected day. */
  function View(a: Agenda, mobile: bool, hasAnnouncement: bool, utcOffset: int): (p: Page)
    requires SortedByStart(a.events) && ParisOffset(utcOffset) && InTimestampRange(a.selectedDay)
    ensures p.columns == Columns(FirstDay(a.selectedDay, mobile), ColumnCount, a.selectedDay, a.events, utcOffset)
    ensures p.showAnnouncement <==>
              var slot := SlotBounds(a.selectedDay, utcOffset);
              mobile && hasAnnouncement && !SlotHidden(a.events, slot.0, slot.1)
  {
    var first := FirstDay(a.selectedDay, mobile);
    var show := if mobile && hasAnnouncement then
                  var slot := SlotBounds(first + 2, utcOffset);
                  !SlotHidden(a.events, slot.0, slot.1)
                else false;
    Page(Columns(first, ColumnCount, a.selectedDay, a.events, utcOffset), show)
  }

  /** On desktop the columns run Monday to Saturday of the selected week, and
      the selected day is among them exactly when it is not a Sunday. */
  lemma DesktopShowsMondayToSaturday(a: Agenda, hasAnnouncement: bool, utcOffset: int)
    requires SortedByStart(a.events) && ParisOffset(utcOffset) && InTimestampRange(a.selectedDay)
    ensures var cs := View(a, false, hasAnnouncement, utcOffset).columns;
            && (forall d :: 0 <= d < |cs| ==> NumDaysFromMonday(WeekdayOfDay(cs[d].day)) == d)
            && ((exists d :: 0 <= d < |cs| && cs[d].selected) <==> WeekdayOfDay(a.selectedDay) != Sun)
  {
    var first := FirstDay(a.selectedDay, false);
    WeekColumns(first, a.selectedDay, a.events, utcOffset);
  }

  lemma WeekColumns(first: int, selectedDay: int, events: seq<Event>, utcOffset: int)
    requires SortedByStart(events)
    requires WeekdayOfDay(first) == Mon && first <= selectedDay <= first + 6
    ensures var cs := Columns(first, ColumnCount, selectedDay, events, utcOffset);
            && (forall d :: 0 <= d < |cs| ==> NumDaysFromMonday(WeekdayOfDay(cs[d].day)) == d)
            && ((exists d :: 0 <= d < |cs| && cs[d].selected) <==> WeekdayOfDay(selectedDay) != Sun)
  {
    var cs := Columns(first, ColumnCount, selectedDay, events, utcOffset);
    MondayWeek(first, selectedDay);
    forall d | 0 <= d < |cs|
      ensures NumDaysFromMonday(WeekdayOfDay(cs[d].day)) == d
    {
      assert cs[d].day == first + d;
    }
    if WeekdayOfDay(selectedDay) != Sun {
      assert cs[selectedDay - first].selected;
    }
  }

  /** From a Monday, the next six days are Monday to Saturday, and a day of
      that week lies among them exactly when it is not its Sunday. */
  lemma MondayWeek(first: int, day: int)
    requires WeekdayOfDay(first) == Mon && first <= day <= first + 6
    ensures forall k :: first <= k < first + ColumnCount ==> NumDaysFromMonday(WeekdayOfDay(k)) == k - first
    ensures WeekdayOfDay(day) != Sun <==> day - first < ColumnCount
  {
    forall k | first <= k < first + ColumnCount
      ensures NumDaysFromMonday(WeekdayOfDay(k)) == k - first
    {
      WeekdayShift(first, k - first);
    }
    WeekdayShift(first, day - first);
    assert NumDaysFromMonday(WeekdayOfDay(day)) == day - first;
  }

  /** On mobile the selected day is always the third column and only it. */
  lemma MobileSelectsThirdColumn(a: Agenda, hasAnnouncement: bool, utcOffset: int)
    requires SortedByStart(a.events) && ParisOffset(utcOffset) && InTimestampRange(a.selectedDay)
    ensures var cs := View(a, true, hasAnnouncement, utcOffset).columns;
            forall d :: 0 <= d < |cs| ==> (cs[d].selected <==> d == 2)
  {
  }

  /** Days fewer than seven apart fall on different weekdays. */
  lemma WeekdaysDistinct(k: int, j: int)
    requires 0 < j - k < 7
    ensures WeekdayOfDay(k) != WeekdayOfDay(j)
  {
    WeekdayShift(k, j - k);
  }

  /** Days fewer than seven apart never share a heading, so no two of the
      six columns do. */
  lemma HeadingsDistinct(k: int, j: int)
    requires 0 < j - k < 7
    ensures Heading(k) != Heading(j)
  {
    WeekdaysDistinct(k, j);
    if Heading(k) == Heading(j) {
      Names.FormatDayInjective(WeekdayOfDay(k), DateOf(k).day, WeekdayOfDay(j), DateOf(j).day);
    }
  }

  // ------------------------------------------------- as written in the source

  /** Where the column loop starts in the source: whatever index
      `binary_search_by_key(&day_start, ..)` reports, match or not. */
  function ColumnStartAsWritten(events: seq<Event>, dayStart: nat): (r: nat)
    requires SortedByStart(events)
    ensures r <= |events|
  {
    match BinarySearch(events, dayStart)
    case Found(i) => i
    case NotFound(i) => i
  }

  /** From where the source's column starts on, no event starts before
      midnight. */
  lemma ColumnStartNotBefore(events: seq<Event>, dayStart: nat)
    requires SortedByStart(events)
    ensures forall i :: ColumnStartAsWritten(events, dayStart) <= i < |events| ==> events[i].start >= dayStart
  {
    var from := ColumnStartAsWritten(events, dayStart);
    if BinarySearch(events, dayStart).Found? {
      forall i | from <= i < |events|
        ensures events[i].start >= dayStart
      {
        assert events[from].start <= events[i].start;
      }
    }
  }

  /** The column's events as the source lists them. */
  function ColumnEventsAsWritten(events: seq<Event>, dayStart: nat): (r: seq<Event>)
    requires SortedByStart(events)
    ensures r == StartingWithin(events[ColumnStartAsWritten(events, dayStart)..], dayStart, dayStart + SecondsPerDay)
  {
    var from := ColumnStartAsWritten(events, dayStart);
    ColumnStartNotBefore(events, dayStart);
    TakeUntilIsStartingWithin(events, from, dayStart, dayStart + SecondsPerDay);
    TakeUntil(events, from, dayStart + SecondsPerDay)
  }

  /** From a point past which nothing starts before `lo`, the loop lists
      exactly the events of the rest of the list starting within [lo, hi]. */
  lemma TakeUntilIsStartingWithin(events: seq<Event>, from: nat, lo: nat, hi: nat)
    requires SortedByStart(events) && from <= |events|
    requires forall i :: from <= i < |events| ==> events[i].start >= lo
    ensures TakeUntil(events, from, hi) == StartingWithin(events[from..], lo, hi)
  {
    var r := TakeUntil(events, from, hi);
    TakeUntilSpec(events, from, hi);
    SortedTail(events, from + |r|, hi);
    var tail := events[from..];
    assert forall i :: 0 <= i < |tail| ==> tail[i] == events[from + i];
    SliceIsStartingWithin(tail, 0, |r|, lo, hi);
    assert tail[0..|r|] == r;
  }

  /** What the source lists is what the corrected column lists, minus some
      events starting exactly at midnight: a suffix of it, equal to it when
      no two events share a start. */
  lemma ColumnEventsAsWrittenIsSuffix(events: seq<Event>, dayStart: nat)
    requires SortedByStart(events)
    ensures var full := ColumnEvents(events, dayStart);
            var listed := ColumnEventsAsWritten(events, dayStart);
            && |listed| <= |full| && listed == full[|full| - |listed|..]
            && (forall k :: 0 <= k < |full| - |listed| ==> full[k].start == dayStart)
    ensures (forall i, j :: 0 <= i < j < |events| ==> events[i].start != events[j].start) ==>
              ColumnEventsAsWritten(events, dayStart) == ColumnEvents(events, dayStart)
  {
    var l := LowerBound(events, dayStart);
    LowerBoundSpec(events, dayStart);
    var i := ColumnStartAsWritten(events, dayStart);
    var limit := dayStart + SecondsPerDay;
    var full := TakeUntil(events, l, limit);
    var listed := TakeUntil(events, i, limit);
    assert ColumnEvents(events, dayStart) == full;
    assert ColumnEventsAsWritten(events, dayStart) == listed;
    if BinarySearch(events, dayStart).NotFound? {
      NotFoundIsLowerBound(events, dayStart);
      assert listed == full;
    } else {
      assert events[i].start == dayStart;
      assert l <= i;
      forall k | l <= k < i
        ensures events[k].start == dayStart
      {
        assert events[k].start <= events[i].start;
      }
      TakeUntilFrom(events, l, i, limit);
      forall k | 0 <= k < |full| - |listed|
        ensures full[k].start == dayStart
      {
        assert full[k] == events[l + k];
      }
      assert l < i ==> events[l].start == events[i].start;
    }
  }

  /** Starting later in the same run gives a suffix of the run. */
  lemma {:induction false} TakeUntilFrom(events: seq<Event>, a: nat, b: nat, limit: nat)
    requires a <= b <= |events|
    requires forall k :: a <= k < b ==> events[k].start <= limit
    ensures var ra := TakeUntil(events, a, limit);
            var rb := TakeUntil(events, b, limit);
            |ra| == (b - a) + |rb| && rb == ra[b - a..] && ra[..b - a] == events[a..b]
    decreases b - a
  {
    if a < b {
      TakeUntilFrom(events, a + 1, b, limit);
    }
  }

  /** Two events starting exactly at midnight: the search lands on the
      second, and the source lists only that one. */
  lemma ColumnDropsFirstOfTwoAtMidnight()
    ensures var events := [Event(0, 3600), Event(0, 7200)];
            && SortedByStart(events)
            && ColumnEventsAsWritten(events, 0) == [Event(0, 7200)]
            && ColumnEvents(events, 0) == events
  {
    var events := [Event(0, 3600), Event(0, 7200)];
    assert BinarySearch(events, 0) == Found(1);
    assert StartingWithin(events[1..], 0, SecondsPerDay) == [Event(0, 7200)];
  }

  /** The slot check as the source writes it: when every event starts before
      the slot, the insertion point is past the end, `get` finds nothing, and
      the backward scan never runs. */
  function SlotHiddenAsWritten(events: seq<Event>, s: nat, e: nat): (hidden: bool)
    requires SortedByStart(events) && s <= e < U64Modulus
    ensures hidden ==> SlotHidden(events, s, e)
    ensures LowerBound(events, s) < |events| ==> hidden == SlotHidden(events, s, e)
    ensures LowerBound(events, s) == |events| ==> !hidden
  {
    LowerBoundSpec(events, s);
    match BinarySearch(events, s)
    case Found(_) => true
    case NotFound(idx) =>
      NotFoundIsLowerBound(events, s);
      if idx < |events| then
        InSlot(events[idx].start, s, e) || BackScan(events, idx - 1, s, e, Cutoff(s))
      else false
  }

  /** An event 18:00 to 19:00 CET on 1970-01-01, the last of the list: it
      ends inside that evening's 18:30 to 20:00 slot, yet the source shows
      the announcement. */
  lemma SlotMissesLastEvent()
    ensures var events := [Event(61200, 64800)];
            var slot := SlotBounds(UnixEpochDay, 3600);
            && SortedByStart(events)
            && slot == (63000, 68400)
            && !SlotHiddenAsWritten(events, slot.0, slot.1)
            && SlotHidden(events, slot.0, slot.1)
  {
    var events := [Event(61200, 64800)];
    assert BinarySearch(events, 63000) == NotFound(1);
    assert InSlot(events[0].end, 63000, 68400) && ScanReaches(events, 0, 0, 63000, 68400, Cutoff(63000));
  }

  /** The column of `day` as the source fills it. */
  function MakeColumnAsWritten(day: int, selectedDay: int, events: seq<Event>, utcOffset: int): (c: Column)
    requires SortedByStart(events)
    ensures c.day == day
    ensures c.selected <==> day == selectedDay
    ensures var start := DayStart(day, utcOffset);
            c.events == StartingWithin(events[ColumnStartAsWritten(events, start)..], start, start + SecondsPerDay)
  {
    Column(day, day == selectedDay, ColumnEventsAsWritten(events, DayStart(day, utcOffset)))
  }

  function ColumnsAsWritten(first: int, count: nat, selectedDay: int, events: seq<Event>, utcOffset: int): (cs: seq<Column>)
    requires SortedByStart(events)
    ensures |cs| == count
    ensures forall d :: 0 <= d < count ==> cs[d] == MakeColumnAsWritten(first + d, selectedDay, events, utcOffset)
  {
    if count == 0 then []
    else ColumnsAsWritten(first, count - 1, selectedDay, events, utcOffset) + [MakeColumnAsWritten(first + count - 1, selectedDay, events, utcOffset)]
  }

  /** `view` as the source writes it: the same six days, with the source's
      column start and the source's slot check. */
  function ViewAsWritten(a: Agenda, mobile: bool, hasAnnouncement: bool, utcOffset: int): (p: Page)
    requires SortedByStart(a.events) && ParisOffset(utcOffset) && InTimestampRange(a.selectedDay)
    ensures p.columns == ColumnsAsWritten(FirstDay(a.selectedDay, mobile), ColumnCount, a.selectedDay, a.events, utcOffset)
    ensures p.showAnnouncement <==>
              var slot := SlotBounds(a.selectedDay, utcOffset);
              mobile && hasAnnouncement && !SlotHiddenAsWritten(a.events, slot.0, slot.1)
  {
    var first := FirstDay(a.selectedDay, mobile);
    var show := if mobile && hasAnnouncement then
                  var slot := SlotBounds(first + 2, utcOffset);
                  !SlotHiddenAsWritten(a.events, slot.0, slot.1)
                else false;
    Page(ColumnsAsWritten(first, ColumnCount, a.selectedDay, a.events, utcOffset), show)
  }

  /** Column by column, the source's list is a suffix of the corrected one
      that lacks only events starting at midnight, and the same list when no
      two events share a start. */
  lemma ColumnsAsWrittenAgainstColumns(first: int, count: nat, selectedDay: int, events: seq<Event>, utcOffset: int)
    requires SortedByStart(events)
    ensures var w := ColumnsAsWritten(first, count, selectedDay, events, utcOffset);
            var v := Columns(first, count, selectedDay, events, utcOffset);
            forall d :: 0 <= d < count ==>
              && w[d].day == v[d].day
              && w[d].selected == v[d].selected
              && |w[d].events| <= |v[d].events|
              && w[d].events == v[d].events[|v[d].events| - |w[d].events|..]
              && (forall k :: 0 <= k < |v[d].events| - |w[d].events| ==> v[d].events[k].start == DayStart(v[d].day, utcOffset))
    ensures (forall i, j :: 0 <= i < j < |events| ==> events[i].start != events[j].start) ==>
              ColumnsAsWritten(first, count, selectedDay, events, utcOffset) == Columns(first, count, selectedDay, events, utcOffset)
  {
    var w := ColumnsAsWritten(first, count, selectedDay, events, utcOffset);
    var v := Columns(first, count, selectedDay, events, utcOffset);
    forall d | 0 <= d < count
      ensures && |w[d].events| <= |v[d].events|
              && w[d].events == v[d].events[|v[d].events| - |w[d].events|..]
              && (forall k :: 0 <= k < |v[d].events| - |w[d].events| ==> v[d].events[k].start == DayStart(v[d].day, utcOffset))
    {
      ColumnEventsAsWrittenIsSuffix(events, DayStart(first + d, utcOffset));
    }
    if forall i, j :: 0 <= i < j < |events| ==> events[i].start != events[j].start {
      ColumnsAsWrittenEqual(first, count, selectedDay, events, utcOffset);
    }
  }

  /** When no two events share a start, the source's columns are the
      corrected ones. */
  lemma ColumnsAsWrittenEqual(first: int, count: nat, selectedDay: int, events: seq<Event>, utcOffset: int)
    requires SortedByStart(events)
    requires forall i, j :: 0 <= i < j < |events| ==> events[i].start != events[j].start
    ensures ColumnsAsWritten(first, count, selectedDay, events, utcOffset) == Columns(first, count, selectedDay, events, utcOffset)
  {
    var w := ColumnsAsWritten(first, count, selectedDay, events, utcOffset);
    var v := Columns(first, count, selectedDay, events, utcOffset);
    forall d | 0 <= d < count
      ensures w[d] == v[d]
    {
      ColumnEventsAsWrittenIsSuffix(events, DayStart(first + d, utcOffset));
    }
  }

  /** The announcement as the source decides it: shown whenever the
      corrected check shows it, and decided alike whenever some event
      starts at or after the slot. */
  lemma AnnouncementAsWritten(a: Agenda, mobile: bool, hasAnnouncement: bool, utcOffset: int)
    requires SortedByStart(a.events) && ParisOffset(utcOffset) && InTimestampRange(a.selectedDay)
    ensures var w := ViewAsWritten(a, mobile, hasAnnouncement, utcOffset).showAnnouncement;
            var v := View(a, mobile, hasAnnouncement, utcOffset).showAnnouncement;
            && (v ==> w)
            && (LowerBound(a.events, SlotBounds(a.selectedDay, utcOffset).0) < |a.events| ==> w == v)
            && (mobile && hasAnnouncement && LowerBound(a.events, SlotBounds(a.selectedDay, utcOffset).0) == |a.events| ==> w)
  {
    assert mobile ==> FirstDay(a.selectedDay, mobile) + 2 == a.selectedDay;
  }

  /** The page the source renders against the corrected one. */
  lemma ViewAsWrittenAgainstView(a: Agenda, mobile: bool, hasAnnouncement: bool, utcOffset: int)
    requires SortedByStart(a.events) && ParisOffset(utcOffset) && InTimestampRange(a.selectedDay)
    ensures var w := ViewAsWritten(a, mobile, hasAnnouncement, utcOffset);
            var v := View(a, mobile, hasAnnouncement, utcOffset);
            && (v.showAnnouncement ==> w.showAnnouncement)
            && (((forall i, j :: 0 <= i < j < |a.events| ==> a.events[i].start != a.events[j].start)
                  && LowerBound(a.events, SlotBounds(a.selectedDay, utcOffset).0) < |a.events|) ==> w == v)
  {
    ColumnsAsWrittenAgainstColumns(FirstDay(a.selectedDay, mobile), ColumnCount, a.selectedDay, a.events, utcOffset);
    AnnouncementAsWritten(a, mobile, hasAnnouncement, utcOffset);
  }
}

=== FILE: calendar.dfy ===
/** The month picker shown beside the agenda (the `Calendar` component):
    its state, its `update` (month steps when unfolded, week steps when
    folded, jumps, folding) and the integer content of its `view` (the
    header, the grid of day cells and its split into weeks). */
module Calendar {
  import opened Options
  import opened Dates
  import Names
  import Agenda

  /** The picker's selected date, as three loose numbers, and whether it is
      folded to a single week. */
  datatype Calendar = Calendar(day: nat, month: nat, year: int, folded: bool)

  datatype Msg = Next | Previous | Goto(day: nat, month: nat, year: int) | TriggerFold

  /** What an update sends: nothing, a message to the agenda, or a message
      to the picker itself. */
  datatype Effect = NoEffect | ToAgenda(agendaMsg: Agenda.Msg) | ToSelf(selfMsg: Msg)

  datatype Step = Step(calendar: Calendar, effect: Effect)

  const U32Max: nat := 0xFFFF_FFFF

  function SelectedDate(c: Calendar): Date {
    Date(c.year, c.month, c.day)
  }

  /** `create`: the picker opens folded on the day the agenda shows. */
  function Create(agendaDay: int): (c: Calendar)
    ensures c.folded
    ensures Valid(SelectedDate(c)) && DayNumber(SelectedDate(c)) == agendaDay
  {
    DateOfSpec(agendaDay);
    var d := DateOf(agendaDay);
    Calendar(d.day, d.month, d.year, true)
  }

  /** `NaiveDate::from_ymd(year, month % 12 + 1, 1).pred().day()`: the
      length of the month. For December the day before 1 January of the
      same year is taken, which is still the 31st. */
  function LastDayOfMonth(year: int, month: nat): (r: nat)
    ensures 1 <= month <= 12 ==> r == DaysInMonth(year, month)
  {
    Pred(Date(year, month % 12 + 1, 1)).day
  }

  /** `update`. `None` is a panic: folded, `NaiveDate::from_ymd` on a
      selected date that does not exist. Unfolded, `Next` and `Previous`
      move to the first and to the last day of the neighbouring month and
      tell the agenda; folded, they move a week by sending the picker a
      `Goto`; `Goto` selects and tells the agenda; `TriggerFold` folds or
      unfolds. A month 0 wraps to `u32::MAX` on `Previous`, as a release
      build does. */
  function Update(c: Calendar, msg: Msg): (r: Option<Step>)
    ensures r.None? <==> (msg.Next? || msg.Previous?) && c.folded && !Valid(SelectedDate(c))
    ensures r.Some? ==> r.value.calendar.folded == (if msg.TriggerFold? then !c.folded else c.folded)
    ensures r.Some? && c.folded && !msg.Goto? ==> r.value.calendar == c.(folded := r.value.calendar.folded)
    ensures r.Some? && msg.Goto? ==>
              && SelectedDate(r.value.calendar) == Date(msg.year, msg.month, msg.day)
              && r.value.effect == ToAgenda(Agenda.Goto(msg.day, msg.month, msg.year))
    ensures r.Some? && !c.folded && (msg.Next? || msg.Previous?) ==>
              r.value.effect == ToAgenda(Agenda.Goto(r.value.calendar.day, r.value.calendar.month, r.value.calendar.year))
    ensures msg.TriggerFold? ==> r == Some(Step(c.(folded := !c.folded), NoEffect))
  {
    match msg
    case Next =>
      if !c.folded then
        var month := if c.month == 12 then 1 else c.month + 1;
        var year := if c.month == 12 then c.year + 1 else c.year;
        Some(Step(Calendar(1, month, year, c.folded), ToAgenda(Agenda.Goto(1, month, year))))
      else WeekStep(c, 7)
    case Previous =>
      if !c.folded then
        var month := if c.month == 1 then 12 else if c.month == 0 then U32Max else c.month - 1;
        var year := if c.month == 1 then c.year - 1 else c.year;
        var day := LastDayOfMonth(year, month);
        Some(Step(Calendar(day, month, year, c.folded), ToAgenda(Agenda.Goto(day, month, year))))
      else WeekStep(c, -7)
    case Goto(day, month, year) =>
      Some(Step(Calendar(day, month, year, c.folded), ToAgenda(Agenda.Goto(day, month, year))))
    case TriggerFold =>
      Some(Step(c.(folded := !c.folded), NoEffect))
  }

  /** The folded `Next`/`Previous`: a `Goto` to the selected date moved by
      `days`, sent to the picker itself. */
  function WeekStep(c: Calendar, days: int): (r: Option<Step>)
    ensures r.None? <==> !Valid(SelectedDate(c))
    ensures r.Some? ==> r.value.calendar == c && r.value.effect.ToSelf? && r.value.effect.selfMsg.Goto?
    ensures r.Some? ==>
              var g := r.value.effect.selfMsg;
              Date(g.year, g.month, g.day) == AddDays(SelectedDate(c), days)
  {
    match FromYmd(c.year, c.month, c.day)
    case None => None
    case Some(d) =>
      var n := AddDays(d, days);
      Some(Step(c, ToSelf(Goto(n.day, n.month, n.year))))
  }

  /** The picker holds an existing date. */
  predicate ValidState(c: Calendar) {
    Valid(SelectedDate(c))
  }

  /** Unfolded `Next` from an existing date selects the day right after the
      end of its month, which is the 1st of the next month. */
  lemma MonthNextIsFirstOfNextMonth(c: Calendar)
    requires ValidState(c) && !c.folded
    ensures var r := Update(c, Next);
            && r.Some? && ValidState(r.value.calendar) && r.value.calendar.day == 1
            && DayNumber(SelectedDate(r.value.calendar)) == DayNumber(Date(c.year, c.month, 1)) + DaysInMonth(c.year, c.month)
  {
    DaysBeforeNextMonth(c.year, c.month);
    if c.month == 12 {
      DaysBeforeNextYear(c.year);
    }
  }

  /** Unfolded `Previous` from an existing date selects the day right
      before the 1st of its month. */
  lemma MonthPreviousIsLastOfPreviousMonth(c: Calendar)
    requires ValidState(c) && !c.folded
    ensures var r := Update(c, Previous);
            && r.Some? && ValidState(r.value.calendar)
            && DayNumber(SelectedDate(r.value.calendar)) == DayNumber(Date(c.year, c.month, 1)) - 1
  {
    PredSpec(Date(c.year, c.month, 1));
    var p := Pred(Date(c.year, c.month, 1));
    if c.month == 1 {
      DaysBeforeNextYear(c.year - 1);
    } else {
      DaysBeforeNextMonth(c.year, c.month - 1);
    }
  }

  /** Unfolded, `Previous` after `Next` comes back to the same month (on its
      last day), and `Next` after `Previous` to the same month (on its
      1st). */
  lemma MonthStepsInverse(c: Calendar)
    requires ValidState(c) && !c.folded
    ensures var n := Update(c, Next).value.calendar;
            var b := Update(n, Previous).value.calendar;
            b.month == c.month && b.year == c.year && b.day == DaysInMonth(c.year, c.month)
    ensures var p := Update(c, Previous).value.calendar;
            var f := Update(p, Next).value.calendar;
            f.month == c.month && f.year == c.year && f.day == 1
  {
  }

  /** Every message the picker sends to the agenda from an existing date
      names an existing date, so the agenda's `Goto` never panics on it;
      `Goto` messages are passed on as they come. */
  lemma AgendaGetsValidDates(c: Calendar, msg: Msg)
    requires ValidState(c) && !msg.Goto?
    ensures var r := Update(c, msg);
            && r.Some? && ValidState(r.value.calendar)
            && (r.value.effect.ToAgenda? ==>
                  var g := r.value.effect.agendaMsg;
                  g.Goto? && Valid(Date(g.year, g.month, g.day)))
  {
    if !c.folded && msg.Next? {
      MonthNextIsFirstOfNextMonth(c);
    } else if !c.folded && msg.Previous? {
      MonthPreviousIsLastOfPreviousMonth(c);
    }
  }

  /** A message together with the message the picker then sends itself
      (the folded week steps send a `Goto`, which sends nothing further). */
  function Handle(c: Calendar, msg: Msg): (r: Option<Step>)
    ensures r.None? <==> Update(c, msg).None?
    ensures r.Some? ==> !r.value.effect.ToSelf?
    ensures r.Some? && c.folded && (msg.Next? || msg.Previous?) ==>
              && r.value.calendar.folded
              && SelectedDate(r.value.calendar) == AddDays(SelectedDate(c), if msg.Next? then 7 else -7)
              && r.value.effect == ToAgenda(Agenda.Goto(r.value.calendar.day, r.value.calendar.month, r.value.calendar.year))
  {
    match Update(c, msg)
    case None => None
    case Some(s) => if s.effect.ToSelf? then Update(s.calendar, s.effect.selfMsg) else Some(s)
  }

  /** Folded, `Next` selects the same weekday one week later and tells the
      agenda. */
  lemma WeekNextSameWeekday(c: Calendar)
    requires ValidState(c) && c.folded
    ensures Handle(c, Next).Some?
    ensures var s := Handle(c, Next).value;
            var n := s.calendar;
            && ValidState(n) && n.folded
            && DayNumber(SelectedDate(n)) == DayNumber(SelectedDate(c)) + 7
            && WeekdayOf(SelectedDate(n)) == WeekdayOf(SelectedDate(c))
            && s.effect == ToAgenda(Agenda.Goto(n.day, n.month, n.year))
  {
    var later := AddDays(SelectedDate(c), 7);
    FoldedSteps(c);
    assert FromYmd(c.year, c.month, c.day) == Some(SelectedDate(c));
    assert WeekStep(c, 7) == Some(Step(c, ToSelf(Goto(later.day, later.month, later.year))));
    assert Handle(c, Next) == Update(c, Goto(later.day, later.month, later.year));
    assert SelectedDate(Handle(c, Next).value.calendar) == later;
    SameWeekdayAWeekLater(DayNumber(SelectedDate(c)));
  }

  lemma SameWeekdayAWeekLater(n: int)
    ensures WeekdayOfDay(n + 7) == WeekdayOfDay(n)
  {
    assert (n + 7 + 6) % 7 == (n + 6) % 7;
  }

  /** Folded, `Next` and `Previous` are the week steps. */
  lemma FoldedSteps(c: Calendar)
    requires c.folded
    ensures Update(c, Next) == WeekStep(c, 7) && Update(c, Previous) == WeekStep(c, -7)
  {
  }

  /** Folded, `Next` then `Previous` returns to the starting date. */
  lemma WeekStepsInverse(c: Calendar)
    requires ValidState(c) && c.folded
    ensures Handle(c, Next).Some?
    ensures var n := Handle(c, Next).value.calendar;
            Handle(n, Previous).Some? && Handle(n, Previous).value.calendar == c
  {
    var d := SelectedDate(c);
    var later := AddDays(d, 7);
    FoldedSteps(c);
    assert FromYmd(c.year, c.month, c.day) == Some(d);
    assert WeekStep(c, 7) == Some(Step(c, ToSelf(Goto(later.day, later.month, later.year))));
    assert Handle(c, Next) == Update(c, Goto(later.day, later.month, later.year));
    assert Update(c, Goto(later.day, later.month, later.year)) == Some(Step(Calendar(later.day, later.month, later.year, c.folded), ToAgenda(Agenda.Goto(later.day, later.month, later.year))));
    assert Handle(c, Next) == Some(Step(c.(day := later.day, month := later.month, year := later.year), ToAgenda(Agenda.Goto(later.day, later.month, later.year))));
    var n := Calendar(later.day, later.month, later.year, true);
    assert SelectedDate(n) == later;
    AddDaysInverse(d, 7);
    FoldedSteps(n);
    assert FromYmd(n.year, n.month, n.day) == Some(later);
    assert WeekStep(n, -7) == Some(Step(n, ToSelf(Goto(d.day, d.month, d.year))));
    assert Handle(n, Previous) == Update(n, Goto(d.day, d.month, d.year));
    assert Update(n, Goto(d.day, d.month, d.year)) == Some(Step(Calendar(d.day, d.month, d.year, n.folded), ToAgenda(Agenda.Goto(d.day, d.month, d.year))));
    assert Handle(n, Previous).value.calendar == c;
  }

  // ------------------------------------------------------------------ view

  /** One cell of the grid: a blank that steps the picker, or a day with
      its number, whether it is greyed out, whether it is the selected day,
      and the message a click sends. */
  datatype Cell = Blank(onClick: Msg) | DayCell(day: nat, disabled: bool, selected: bool, onClick: Msg)

  /** Where a click on a Sunday leads, as corrected: the day before (see
      `SundayTargetAsWritten`). */
  function SundayTarget(year: int, month: nat, day: nat): (m: Msg)
    ensures m.Goto?
    ensures day > 1 ==> m == SundayTargetAsWritten(year, month, day)
    ensures day == 1 && 1 < month <= 12 ==> m == Goto(DaysInMonth(year, month - 1), month - 1, year)
    ensures day == 1 && month == 1 ==> m == Goto(31, 12, year - 1)
  {
    var p := Pred(Date(year, month, day));
    Goto(p.day, p.month, p.year)
  }

  /** The corrected target is the existing date right before the Sunday. */
  lemma SundayTargetIsDayBefore(year: int, month: nat, day: nat)
    requires Valid(Date(year, month, day))
    ensures var m := SundayTarget(year, month, day);
            && m.Goto? && Valid(Date(m.year, m.month, m.day))
            && DayNumber(Date(m.year, m.month, m.day)) == DayNumber(Date(year, month, day)) - 1
  {
    PredSpec(Date(year, month, day));
  }

  /** Where a click on a Sunday leads in the source: `day - 1` in the same
      month, which is day 0 when the 1st is a Sunday. */
  function SundayTargetAsWritten(year: int, month: nat, day: nat): (m: Msg)
    requires day >= 1
    ensures m.Goto? && m.month == month && m.year == year && m.day + 1 == day
    ensures day == 1 ==> !Valid(Date(m.year, m.month, m.day))
  {
    Goto(day - 1, month, year)
  }

  /** The cell of day k of the selected month. */
  function CellOf(c: Calendar, k: nat, asWritten: bool): (cell: Cell)
    requires Valid(Date(c.year, c.month, k))
    ensures cell.DayCell? && cell.day == k
    ensures cell.selected <==> k == c.day
  {
    if WeekdayOf(Date(c.year, c.month, k)) == Sun then
      var target := if asWritten then SundayTargetAsWritten(c.year, c.month, k) else SundayTarget(c.year, c.month, k);
      DayCell(k, true, k == c.day, target)
    else DayCell(k, false, k == c.day, Goto(k, c.month, c.year))
  }

  /** What a click on the cell of day k sends: a weekday sends itself; a
      Sunday, greyed out, sends `day - 1` of the same month as written and
      the corrected target otherwise. */
  lemma CellTargets(c: Calendar, k: nat, asWritten: bool)
    requires Valid(Date(c.year, c.month, k))
    ensures var cell := CellOf(c, k, asWritten);
            && (cell.disabled <==> WeekdayOf(Date(c.year, c.month, k)) == Sun)
            && (!cell.disabled ==> cell.onClick == Goto(k, c.month, c.year))
            && (cell.disabled && asWritten ==> cell.onClick == Goto(k - 1, c.month, c.year))
            && (cell.disabled && !asWritten ==> cell.onClick == SundayTarget(c.year, c.month, k))
  {
  }

  /** The cells of days k..last of the selected month. */
  function DayCells(c: Calendar, k: nat, last: nat, asWritten: bool): (r: seq<Cell>)
    requires 1 <= c.month <= 12 && 1 <= k <= last + 1 && last == DaysInMonth(c.year, c.month)
    ensures |r| == last + 1 - k
    decreases last + 1 - k
  {
    if k > last then [] else [CellOf(c, k, asWritten)] + DayCells(c, k + 1, last, asWritten)
  }

  /** Day j of the month sits at position j - k of `DayCells(c, k, ...)`. */
  lemma {:induction false} DayCellsInOrder(c: Calendar, k: nat, last: nat, asWritten: bool)
    requires 1 <= c.month <= 12 && 1 <= k <= last + 1 && last == DaysInMonth(c.year, c.month)
    ensures forall j :: k <= j <= last ==> DayCells(c, k, last, asWritten)[j - k] == CellOf(c, j, asWritten)
    decreases last + 1 - k
  {
    if k <= last {
      DayCellsInOrder(c, k + 1, last, asWritten);
      var r := DayCells(c, k, last, asWritten);
      var rest := DayCells(c, k + 1, last, asWritten);
      assert r == [CellOf(c, k, asWritten)] + rest;
      forall j | k < j <= last
        ensures r[j - k] == CellOf(c, j, asWritten)
      {
        assert r[j - k] == rest[j - (k + 1)];
      }
    }
  }

  function Blanks(n: nat, onClick: Msg): (r: seq<Cell>)
    ensures |r| == n && forall i :: 0 <= i < n ==> r[i] == Blank(onClick)
  {
    seq(n, _ => Blank(onClick))
  }

  /** Leading blanks: the weekday of the 1st, counted from Monday. */
  function Lead(c: Calendar): nat
    requires 1 <= c.month <= 12
  {
    NumDaysFromMonday(WeekdayOf(Date(c.year, c.month, 1)))
  }

  /** The blanks `(7 - n % 7) % 7` that complete n cells to whole weeks. */
  function PadToWeek(n: nat): (p: nat)
    ensures p < 7 && (n + p) % 7 == 0
  {
    var r := n % 7;
    assert n == 7 * (n / 7) + r;
    if r == 0 then 0 else assert n + (7 - r) == 7 * (n / 7 + 1); 7 - r
  }

  /** `lead` blanks that step back, the day cells, then the blanks that step
      on up to the end of the last week. */
  function Layout(lead: nat, days: seq<Cell>): (cells: seq<Cell>)
    ensures |cells| % 7 == 0 && lead + |days| <= |cells| < lead + |days| + 7
    ensures forall i :: 0 <= i < lead ==> cells[i] == Blank(Previous)
    ensures forall j :: 0 <= j < |days| ==> cells[lead + j] == days[j]
    ensures forall i :: lead + |days| <= i < |cells| ==> cells[i] == Blank(Next)
  {
    Blanks(lead, Previous) + days + Blanks(PadToWeek(lead + |days|), Next)
  }

  function GridWith(c: Calendar, asWritten: bool): Option<seq<Cell>> {
    if !(1 <= c.month <= 12) then None
    else Some(Layout(Lead(c), DayCells(c, 1, LastDayOfMonth(c.year, c.month), asWritten)))
  }

  /** The grid is the layout of the day cells after the leading blanks. */
  lemma GridIs(c: Calendar, asWritten: bool)
    requires 1 <= c.month <= 12
    ensures GridWith(c, asWritten) == Some(Layout(Lead(c), DayCells(c, 1, DaysInMonth(c.year, c.month), asWritten)))
  {
  }

  /** The grid of the `view` loops, as corrected (see `GridLayout`); `None`
      is the panic of `from_ymd` on a month outside 1..12. */
  function Grid(c: Calendar): (r: Option<seq<Cell>>)
    ensures r.Some? <==> 1 <= c.month <= 12
  {
    GridWith(c, false)
  }

  /** The grid: blanks up to the weekday of the 1st (a click steps back),
      one cell per day of the month in order, then blanks to the end of the
      last week (a click steps on). */
  lemma GridLayout(c: Calendar)
    requires 1 <= c.month <= 12
    ensures var cells := Grid(c).value;
            var lead := Lead(c);
            var last := DaysInMonth(c.year, c.month);
            && |cells| % 7 == 0 && lead + last <= |cells| < lead + last + 7
            && (forall i :: 0 <= i < lead ==> cells[i] == Blank(Previous))
            && (forall k :: 1 <= k <= last ==> cells[lead + k - 1] == CellOf(c, k, false))
            && (forall i :: lead + last <= i < |cells| ==> cells[i] == Blank(Next))
  {
    var last := DaysInMonth(c.year, c.month);
    GridIs(c, false);
    DaysAfterLead(Lead(c), c, last);
  }

  lemma DaysAfterLead(lead: nat, c: Calendar, last: nat)
    requires 1 <= c.month <= 12 && last == DaysInMonth(c.year, c.month)
    ensures var cells := Layout(lead, DayCells(c, 1, last, false));
            forall k :: 1 <= k <= last ==> cells[lead + k - 1] == CellOf(c, k, false)
  {
    var days := DayCells(c, 1, last, false);
    forall k | 1 <= k <= last
      ensures Layout(lead, days)[lead + k - 1] == CellOf(c, k, false)
    {
      DayAt(c, last, k - 1, false);
      assert Layout(lead, days)[lead + (k - 1)] == days[k - 1];
    }
  }

  /** The grid the source builds, with `SundayTargetAsWritten`. */
  function GridAsWritten(c: Calendar): (r: Option<seq<Cell>>)
    ensures r.Some? <==> 1 <= c.month <= 12
  {
    GridWith(c, true)
  }

  /** Day k of the month falls in column `(lead + k - 1) % 7`, counted
      from Monday; the Sunday column is the last. */
  lemma SundayColumn(c: Calendar, k: nat)
    requires 1 <= c.month <= 12 && 1 <= k <= DaysInMonth(c.year, c.month)
    ensures WeekdayOf(Date(c.year, c.month, k)) == Sun <==> (Lead(c) + k - 1) % 7 == 6
    ensures CellOf(c, k, false).disabled <==> (Lead(c) + k - 1) % 7 == 6
  {
    var first := DayNumber(Date(c.year, c.month, 1));
    assert DayNumber(Date(c.year, c.month, k)) == first + (k - 1);
    WeekdayShift(first, k - 1);
  }

  lemma WholeWeeksBound(n: nat)
    requires n % 7 == 0 && n < 44
    ensures n <= 42
  {
  }

  /** At most six weeks, and the greyed-out cells are exactly the days in
      the last (Sunday) column. */
  lemma GridShape(c: Calendar)
    requires 1 <= c.month <= 12
    ensures var cells := Grid(c).value;
            && |cells| <= 42
            && forall i :: 0 <= i < |cells| && cells[i].DayCell? ==> (cells[i].disabled <==> i % 7 == 6)
  {
    var last := DaysInMonth(c.year, c.month);
    GridIs(c, false);
    DayColumns(c, last);
    LayoutColumns(Lead(c), DayCells(c, 1, last, false));
  }

  /** Day j + 1 of the month is greyed out exactly when it lands in the
      Sunday column once the month is shifted right by `Lead(c)` cells. */
  lemma DayColumns(c: Calendar, last: nat)
    requires 1 <= c.month <= 12 && last == DaysInMonth(c.year, c.month)
    ensures var days := DayCells(c, 1, last, false);
            forall j :: 0 <= j < |days| ==> days[j].DayCell? && (days[j].disabled <==> (Lead(c) + j) % 7 == 6)
  {
    forall j | 0 <= j < last
      ensures var cell := DayCells(c, 1, last, false)[j];
              cell.DayCell? && (cell.disabled <==> (Lead(c) + j) % 7 == 6)
    {
      DayAt(c, last, j, false);
      SundayColumn(c, j + 1);
    }
  }

  lemma DayAt(c: Calendar, last: nat, j: nat, asWritten: bool)
    requires 1 <= c.month <= 12 && last == DaysInMonth(c.year, c.month) && j < last
    ensures DayCells(c, 1, last, asWritten)[j] == CellOf(c, j + 1, asWritten)
  {
    DayCellsInOrder(c, 1, last, asWritten);
    assert DayCells(c, 1, last, asWritten)[(j + 1) - 1] == CellOf(c, j + 1, asWritten);
  }

  lemma LayoutColumns(lead: nat, days: seq<Cell>)
    requires lead < 7 && |days| <= 31
    requires forall j :: 0 <= j < |days| ==> days[j].DayCell? && (days[j].disabled <==> (lead + j) % 7 == 6)
    ensures var cells := Layout(lead, days);
            && |cells| <= 42
            && forall i :: 0 <= i < |cells| && cells[i].DayCell? ==> (cells[i].disabled <==> i % 7 == 6)
  {
    var cells := Layout(lead, days);
    WholeWeeksBound(|cells|);
    forall i | 0 <= i < |cells| && cells[i].DayCell?
      ensures cells[i].disabled <==> i % 7 == 6
    {
      assert cells[lead + (i - lead)] == days[i - lead];
    }
  }

  /** Every click in the corrected grid names an existing date or steps the
      picker, so the agenda's `Goto` never panics on it. */
  lemma GridTargetsValid(c: Calendar)
    requires 1 <= c.month <= 12
    ensures var cells := Grid(c).value;
            forall i :: 0 <= i < |cells| && cells[i].onClick.Goto? ==>
              var g := cells[i].onClick;
              Valid(Date(g.year, g.month, g.day))
  {
    var last := DaysInMonth(c.year, c.month);
    GridIs(c, false);
    DayTargetsValid(c, last);
    LayoutTargets(Lead(c), DayCells(c, 1, last, false));
  }

  lemma DayTargetsValid(c: Calendar, last: nat)
    requires 1 <= c.month <= 12 && last == DaysInMonth(c.year, c.month)
    ensures var days := DayCells(c, 1, last, false);
            forall j :: 0 <= j < |days| && days[j].onClick.Goto? ==>
              Valid(Date(days[j].onClick.year, days[j].onClick.month, days[j].onClick.day))
  {
    forall j | 0 <= j < last
      ensures var g := DayCells(c, 1, last, false)[j].onClick;
              g.Goto? && Valid(Date(g.year, g.month, g.day))
    {
      DayAt(c, last, j, false);
      CellTargetValid(c, j + 1);
    }
  }

  lemma LayoutTargets(lead: nat, days: seq<Cell>)
    requires forall j :: 0 <= j < |days| && days[j].onClick.Goto? ==>
               Valid(Date(days[j].onClick.year, days[j].onClick.month, days[j].onClick.day))
    ensures var cells := Layout(lead, days);
            forall i :: 0 <= i < |cells| && cells[i].onClick.Goto? ==>
              Valid(Date(cells[i].onClick.year, cells[i].onClick.month, cells[i].onClick.day))
  {
    var cells := Layout(lead, days);
    forall i | 0 <= i < |cells| && cells[i].onClick.Goto?
      ensures Valid(Date(cells[i].onClick.year, cells[i].onClick.month, cells[i].onClick.day))
    {
      assert cells[lead + (i - lead)] == days[i - lead];
    }
  }

  lemma CellTargetValid(c: Calendar, k: nat)
    requires Valid(Date(c.year, c.month, k))
    ensures var m := CellOf(c, k, false).onClick;
            m.Goto? && Valid(Date(m.year, m.month, m.day))
    ensures var m := CellOf(c, k, false).onClick;
            CellOf(c, k, false).disabled ==>
              DayNumber(Date(m.year, m.month, m.day)) == DayNumber(Date(c.year, c.month, k)) - 1
  {
    SundayTargetIsDayBefore(c.year, c.month, k);
  }

  /** What a click on day k of the corrected grid sends: a weekday sends
      itself, and a Sunday the existing date right before it. */
  lemma GridCellTarget(c: Calendar, k: nat)
    requires 1 <= c.month <= 12 && 1 <= k <= DaysInMonth(c.year, c.month)
    ensures var cell := Grid(c).value[Lead(c) + k - 1];
            && cell.DayCell? && cell.day == k
            && (WeekdayOf(Date(c.year, c.month, k)) != Sun ==> cell.onClick == Goto(k, c.month, c.year))
            && (WeekdayOf(Date(c.year, c.month, k)) == Sun ==>
                  var m := cell.onClick;
                  && m.Goto? && Valid(Date(m.year, m.month, m.day))
                  && DayNumber(Date(m.year, m.month, m.day)) == DayNumber(Date(c.year, c.month, k)) - 1)
  {
    GridLayout(c);
    CellTargets(c, k, false);
    CellTargetValid(c, k);
  }

  /** January 2023 starts on a Sunday: the source's grid for that month
      sends `Goto` day 0, which the picker passes to the agenda, whose `Goto`
      then panics. */
  lemma SundayFirstSendsDayZero(c: Calendar, a: Agenda.Agenda, hasEventOnDay: Agenda.EventQuery)
    requires c.month == 1 && c.year == 2023
    ensures WeekdayOf(Date(2023, 1, 1)) == Sun
    ensures GridAsWritten(c).value[6] == DayCell(1, true, c.day == 1, Goto(0, 1, 2023))
    ensures Update(c, Goto(0, 1, 2023)).value.effect == ToAgenda(Agenda.Goto(0, 1, 2023))
    ensures Agenda.Update(a, Agenda.Goto(0, 1, 2023), hasEventOnDay).None?
  {
    FirstOfJanuary2023();
    SundayFirstCell(c, true);
    AgendaRejectsDayZero(a, hasEventOnDay);
  }

  lemma AgendaRejectsDayZero(a: Agenda.Agenda, hasEventOnDay: Agenda.EventQuery)
    ensures Agenda.Update(a, Agenda.Goto(0, 1, 2023), hasEventOnDay).None?
  {
  }

  /** The corrected grid sends 31 December 2022 from that cell. */
  lemma SundayFirstSendsDayBefore(c: Calendar)
    requires c.month == 1 && c.year == 2023
    ensures Grid(c).value[6] == DayCell(1, true, c.day == 1, Goto(31, 12, 2022))
  {
    FirstOfJanuary2023();
    SundayFirstCell(c, false);
  }

  lemma FirstOfJanuary2023()
    ensures WeekdayOf(Date(2023, 1, 1)) == Sun
  {
    assert DayNumber(Date(2023, 1, 1)) == 738521;
  }

  /** When the 1st is a Sunday its cell is the seventh, greyed out. */
  lemma SundayFirstCell(c: Calendar, asWritten: bool)
    requires 1 <= c.month <= 12 && WeekdayOf(Date(c.year, c.month, 1)) == Sun
    ensures GridWith(c, asWritten).value[6] == CellOf(c, 1, asWritten)
    ensures CellOf(c, 1, asWritten) == DayCell(1, true, c.day == 1,
              if asWritten then Goto(0, c.month, c.year) else SundayTarget(c.year, c.month, 1))
  {
    var days := DayCells(c, 1, DaysInMonth(c.year, c.month), asWritten);
    DayCellsInOrder(c, 1, DaysInMonth(c.year, c.month), asWritten);
    GridIs(c, asWritten);
    assert days[1 - 1] == CellOf(c, 1, asWritten);
  }

  /** Outside a Sunday falling on the 1st, the source's grid and the
      corrected one agree. */
  lemma GridAsWrittenAgrees(c: Calendar)
    requires 1 <= c.month <= 12 && WeekdayOf(Date(c.year, c.month, 1)) != Sun
    ensures GridAsWritten(c) == Grid(c)
  {
    var last := DaysInMonth(c.year, c.month);
    var written := DayCells(c, 1, last, true);
    var corrected := DayCells(c, 1, last, false);
    DayCellsInOrder(c, 1, last, true);
    DayCellsInOrder(c, 1, last, false);
    forall i | 0 <= i < last
      ensures written[i] == corrected[i]
    {
      var k := i + 1;
      assert written[k - 1] == CellOf(c, k, true);
      assert corrected[k - 1] == CellOf(c, k, false);
      CellAgrees(c, k);
    }
    assert written == corrected;
  }

  /** Only the 1st's cell can differ: for a later day the day before is in
      the same month. */
  lemma CellAgrees(c: Calendar, k: nat)
    requires Valid(Date(c.year, c.month, k))
    requires k > 1 || WeekdayOf(Date(c.year, c.month, k)) != Sun
    ensures CellOf(c, k, true) == CellOf(c, k, false)
  {
  }

  /** The header and the grid of the `view`; `None` is the panic of a month
      outside 1..12. */
  datatype Page = Page(title: string, cells: seq<Cell>, folded: bool)

  function View(c: Calendar): (r: Option<Page>)
    ensures r.Some? <==> 1 <= c.month <= 12
    ensures r.Some? ==> Some(r.value.title) == Names.MonthTitle(c.month, c.year) && Some(r.value.cells) == Grid(c)
  {
    match Names.MonthTitle(c.month, c.year)
    case None => None
    case Some(title) => Some(Page(title, Grid(c).value, c.folded))
  }

  /** `view` as the source writes it, from `GridAsWritten`. */
  function ViewAsWritten(c: Calendar): (r: Option<Page>)
    ensures r.Some? <==> 1 <= c.month <= 12
    ensures r.Some? ==> Some(r.value.title) == Names.MonthTitle(c.month, c.year) && Some(r.value.cells) == GridAsWritten(c)
  {
    match Names.MonthTitle(c.month, c.year)
    case None => None
    case Some(title) => Some(Page(title, GridAsWritten(c).value, c.folded))
  }

  /** The page the source renders is the corrected page unless the 1st of
      the month is a Sunday, and then only the 1st's cell differs: it sends
      day 0 instead of the day before. */
  lemma ViewAsWrittenAgainstView(c: Calendar)
    requires 1 <= c.month <= 12
    ensures WeekdayOf(Date(c.year, c.month, 1)) != Sun ==> ViewAsWritten(c) == View(c)
    ensures WeekdayOf(Date(c.year, c.month, 1)) == Sun ==>
              var w := ViewAsWritten(c).value.cells;
              var v := View(c).value.cells;
              && |w| == |v|
              && w[6] == v[6].(onClick := Goto(0, c.month, c.year))
              && v[6].onClick == SundayTarget(c.year, c.month, 1)
              && forall i :: 0 <= i < |v| && i != 6 ==> w[i] == v[i]
  {
    if WeekdayOf(Date(c.year, c.month, 1)) != Sun {
      GridAsWrittenAgrees(c);
    } else {
      var last := DaysInMonth(c.year, c.month);
      SundayFirstCell(c, true);
      SundayFirstCell(c, false);
      GridIs(c, true);
      GridIs(c, false);
      LaterDaysAgree(c, last);
      LayoutDiffersOnlyAt(Lead(c), DayCells(c, 1, last, true), DayCells(c, 1, last, false));
    }
  }

  /** From the 2nd on, the source's day cells are the corrected ones. */
  lemma LaterDaysAgree(c: Calendar, last: nat)
    requires 1 <= c.month <= 12 && last == DaysInMonth(c.year, c.month)
    ensures forall j :: 0 < j < last ==> DayCells(c, 1, last, true)[j] == DayCells(c, 1, last, false)[j]
  {
    forall j | 0 < j < last
      ensures DayCells(c, 1, last, true)[j] == DayCells(c, 1, last, false)[j]
    {
      DayAt(c, last, j, true);
      DayAt(c, last, j, false);
      CellAgrees(c, j + 1);
    }
  }

  /** Day lists that differ at most in their first cell lay out alike except
      at that cell's position. */
  lemma LayoutDiffersOnlyAt(lead: nat, written: seq<Cell>, corrected: seq<Cell>)
    requires |written| == |corrected|
    requires forall j :: 0 < j < |written| ==> written[j] == corrected[j]
    ensures |Layout(lead, written)| == |Layout(lead, corrected)|
    ensures forall i :: 0 <= i < |Layout(lead, written)| && i != lead ==> Layout(lead, written)[i] == Layout(lead, corrected)[i]
  {
    var w := Layout(lead, written);
    var v := Layout(lead, corrected);
    forall i | lead < i < lead + |written|
      ensures w[i] == v[i]
    {
      assert w[lead + (i - lead)] == written[i - lead];
      assert v[lead + (i - lead)] == corrected[i - lead];
    }
  }

  /** The `for week in 1..=len/7` loop draining seven cells at a time: the
      rows are the consecutive sevens of the grid, in order. */
  method Rows(cells: seq<Cell>) returns (rows: seq<seq<Cell>>)
    ensures |rows| == |cells| / 7
    ensures forall r :: 0 <= r < |rows| ==> rows[r] == cells[7 * r..7 * r + 7]
  {
    rows := [];
    var rest := cells;
    var week := 1;
    while week <= |cells| / 7
      invariant 1 <= week <= |cells| / 7 + 1 && |rows| == week - 1
      invariant rest == cells[7 * |rows|..]
      invariant forall r :: 0 <= r < |rows| ==> rows[r] == cells[7 * r..7 * r + 7]
    {
      rows := rows + [rest[..7]];
      rest := rest[7..];
      week := week + 1;
    }
  }
}

=== FILE: dates.dfy ===
/** A proleptic Gregorian calendar written from scratch: the part of the
    `chrono` date API the agenda and the month picker rely on (`succ`, `pred`,
    `weekday`, `num_days_from_ce`, `from_ymd`). */
module Dates {
  import opened Options

  datatype Weekday = Mon | Tue | Wed | Thu | Fri | Sat | Sun

  /** `Weekday::num_days_from_monday`: Monday is 0, Sunday is 6. */
  function NumDaysFromMonday(w: Weekday): (n: nat)
    ensures n < 7
  {
    match w
    case Mon => 0
    case Tue => 1
    case Wed => 2
    case Thu => 3
    case Fri => 4
    case Sat => 5
    case Sun => 6
  }

  function WeekdayFromIndex(i: nat): (w: Weekday)
    requires i < 7
    ensures NumDaysFromMonday(w) == i
  {
    [Mon, Tue, Wed, Thu, Fri, Sat, Sun][i]
  }

  datatype Date = Date(year: int, month: nat, day: nat)

  predicate IsLeapYear(y: int) {
    y % 4 == 0 && (y % 100 != 0 || y % 400 == 0)
  }

  function DaysInYear(y: int): int {
    if IsLeapYear(y) then 366 else 365
  }

  /** Length of month m of year y (any number that is not a month gets 31,
      so that stepping an arbitrary date stays total). */
  function DaysInMonth(y: int, m: int): (n: nat)
    ensures 28 <= n <= 31
  {
    if m == 2 then (if IsLeapYear(y) then 29 else 28)
    else if m == 4 || m == 6 || m == 9 || m == 11 then 30
    else 31
  }

  predicate Valid(d: Date) {
    1 <= d.month <= 12 && 1 <= d.day <= DaysInMonth(d.year, d.month)
  }

  /** Number of days in the years 1 .. y-1 (negative for y <= 0); Dafny's
      division rounds down for a positive divisor, as the Gregorian count needs. */
  function DaysBeforeYear(y: int): int {
    var p := y - 1;
    365 * p + p / 4 - p / 100 + p / 400
  }

  /** Number of days of year y before the first of month m. */
  function DaysBeforeMonth(y: int, m: int): int
    requires 1 <= m <= 12
  {
    [0, 31, 59, 90, 120, 151, 181, 212, 243, 273, 304, 334][m - 1]
    + (if m > 2 && IsLeapYear(y) then 1 else 0)
  }

  /** `num_days_from_ce`: 0001-01-01 is day 1. */
  function DayNumber(d: Date): int
    requires Valid(d)
  {
    DaysBeforeYear(d.year) + DaysBeforeMonth(d.year, d.month) + d.day
  }

  /** The weekday of day number n: day 1 (0001-01-01 of the proleptic
      calendar) is a Monday. */
  function WeekdayOfDay(n: int): Weekday {
    WeekdayFromIndex((n + 6) % 7)
  }

  /** `weekday()`. */
  function WeekdayOf(d: Date): Weekday
    requires Valid(d)
  {
    WeekdayOfDay(DayNumber(d))
  }

  /** `NaiveDate::from_ymd_opt`: the date when it exists. */
  function FromYmd(year: int, month: nat, day: nat): (r: Option<Date>)
    ensures r.Some? <==> Valid(Date(year, month, day))
    ensures r.Some? ==> r.value == Date(year, month, day)
  {
    if Valid(Date(year, month, day)) then Some(Date(year, month, day)) else None
  }

  lemma DivStep(q: int)
    ensures q / 4 - (q - 1) / 4 == (if q % 4 == 0 then 1 else 0)
    ensures q / 100 - (q - 1) / 100 == (if q % 100 == 0 then 1 else 0)
    ensures q / 400 - (q - 1) / 400 == (if q % 400 == 0 then 1 else 0)
  {
  }

  /** The closed-form year count advances by the length of the year. */
  lemma DaysBeforeNextYear(y: int)
    ensures DaysBeforeYear(y + 1) == DaysBeforeYear(y) + DaysInYear(y)
  {
    DivStep(y);
  }

  lemma DaysBeforeNextMonth(y: int, m: int)
    requires 1 <= m <= 12
    ensures m < 12 ==> DaysBeforeMonth(y, m + 1) == DaysBeforeMonth(y, m) + DaysInMonth(y, m)
    ensures m == 12 ==> DaysBeforeMonth(y, m) + DaysInMonth(y, m) == DaysInYear(y)
  {
  }

  /** `succ()`: the following day. */
  function Succ(d: Date): Date {
    if d.day < DaysInMonth(d.year, d.month) then Date(d.year, d.month, d.day + 1)
    else if d.month < 12 then Date(d.year, d.month + 1, 1)
    else Date(d.year + 1, 1, 1)
  }

  /** `pred()`: the preceding day. */
  function Pred(d: Date): Date {
    if d.day > 1 then Date(d.year, d.month, d.day - 1)
    else if d.month > 1 then Date(d.year, d.month - 1, DaysInMonth(d.year, d.month - 1))
    else Date(d.year - 1, 12, 31)
  }

  /** `succ` of a valid date is the valid date numbered one more. */
  lemma SuccSpec(d: Date)
    requires Valid(d)
    ensures Valid(Succ(d)) && DayNumber(Succ(d)) == DayNumber(d) + 1
  {
    DaysBeforeNextMonth(d.year, d.month);
    if d.day == DaysInMonth(d.year, d.month) && d.month == 12 {
      DaysBeforeNextYear(d.year);
    }
  }

  /** `pred` of a valid date is the valid date numbered one less. */
  lemma PredSpec(d: Date)
    requires Valid(d)
    ensures Valid(Pred(d)) && DayNumber(Pred(d)) == DayNumber(d) - 1
  {
    if d.day == 1 {
      if d.month > 1 {
        DaysBeforeNextMonth(d.year, d.month - 1);
      } else {
        DaysBeforeNextYear(d.year - 1);
        DaysBeforeNextMonth(d.year - 1, 12);
      }
    }
  }

  /** The date of day number n, reached from 0001-01-01 by single-day steps. */
  function DateOf(n: int): Date
    decreases if n >= 1 then n - 1 else 1 - n
  {
    if n == 1 then Date(1, 1, 1)
    else if n > 1 then Succ(DateOf(n - 1))
    else Pred(DateOf(n + 1))
  }

  /** `DateOf` is a right inverse of `DayNumber`: it gives the valid date
      with number n. */
  lemma {:induction false} DateOfSpec(n: int)
    ensures Valid(DateOf(n)) && DayNumber(DateOf(n)) == n
    decreases if n >= 1 then n - 1 else 1 - n
  {
    if n > 1 {
      DateOfSpec(n - 1);
      SuccSpec(DateOf(n - 1));
    } else if n < 1 {
      DateOfSpec(n + 1);
      PredSpec(DateOf(n + 1));
    }
  }

  /** `d + Duration::days(n)`. */
  function AddDays(d: Date, n: int): (r: Date)
    requires Valid(d)
    ensures Valid(r)
    ensures DayNumber(r) == DayNumber(d) + n
  {
    DateOfSpec(DayNumber(d) + n);
    DateOf(DayNumber(d) + n)
  }

  /** Stepping k days moves the weekday k places round the week. */
  lemma WeekdayShift(n: int, k: int)
    ensures NumDaysFromMonday(WeekdayOfDay(n + k)) == (NumDaysFromMonday(WeekdayOfDay(n)) + k) % 7
  {
    ModSevenShift(n + 6, k);
  }

  lemma ModSevenShift(k: int, n: int)
    ensures (k + n) % 7 == (k % 7 + n) % 7
  {
    var q := k / 7;
    assert k == 7 * q + k % 7;
    assert k + n == 7 * q + (k % 7 + n);
  }

  lemma DayNumberWithinYear(d: Date)
    requires Valid(d)
    ensures DaysBeforeYear(d.year) < DayNumber(d) <= DaysBeforeYear(d.year + 1)
  {
    DaysBeforeNextYear(d.year);
    DaysBeforeNextMonth(d.year, d.month);
    if d.month < 12 {
      MonthsBelowYearEnd(d.year, d.month + 1);
    }
  }

  lemma MonthsBelowYearEnd(y: int, m: int)
    requires 1 <= m <= 12
    ensures DaysBeforeMonth(y, m) + DaysInMonth(y, m) <= DaysInYear(y)
  {
  }

  lemma {:induction false} DaysBeforeYearMonotone(y1: int, y2: int)
    requires y1 < y2
    ensures DaysBeforeYear(y1 + 1) <= DaysBeforeYear(y2)
    decreases y2 - y1
  {
    if y1 + 1 < y2 {
      DaysBeforeYearMonotone(y1 + 1, y2);
      DaysBeforeNextYear(y1 + 1);
    }
  }

  /** Distinct valid dates have distinct day numbers. */
  lemma DayNumberInjective(a: Date, b: Date)
    requires Valid(a) && Valid(b)
    requires DayNumber(a) == DayNumber(b)
    ensures a == b
  {
    DayNumberWithinYear(a);
    DayNumberWithinYear(b);
    if a.year < b.year {
      DaysBeforeYearMonotone(a.year, b.year);
    } else if b.year < a.year {
      DaysBeforeYearMonotone(b.year, a.year);
    }
    assert a.year == b.year;
    SameYearInjective(a, b);
  }

  lemma SameYearInjective(a: Date, b: Date)
    requires Valid(a) && Valid(b) && a.year == b.year
    requires DayNumber(a) == DayNumber(b)
    ensures a == b
  {
    if a.month < b.month {
      MonthBeforeMonth(a.year, a.month, b.month);
    } else if b.month < a.month {
      MonthBeforeMonth(a.year, b.month, a.month);
    }
  }

  lemma MonthBeforeMonth(y: int, m1: int, m2: int)
    requires 1 <= m1 < m2 <= 12
    ensures DaysBeforeMonth(y, m1) + DaysInMonth(y, m1) <= DaysBeforeMonth(y, m2)
  {
  }

  /** `pred` undoes `succ` and the other way round. */
  lemma PredSucc(d: Date)
    requires Valid(d)
    ensures Pred(Succ(d)) == d
    ensures Succ(Pred(d)) == d
  {
    SuccSpec(d);
    PredSpec(d);
    SuccSpec(Pred(d));
    PredSpec(Succ(d));
    DayNumberInjective(Pred(Succ(d)), d);
    DayNumberInjective(Succ(Pred(d)), d);
  }

  /** `DateOf` undoes `DayNumber`: every valid date has exactly one number. */
  lemma DateOfDayNumber(d: Date)
    requires Valid(d)
    ensures DateOf(DayNumber(d)) == d
  {
    DateOfSpec(DayNumber(d));
    DayNumberInjective(DateOf(DayNumber(d)), d);
  }

  /** Moving n days and back returns to the start. */
  lemma AddDaysInverse(d: Date, n: int)
    requires Valid(d)
    ensures AddDays(AddDays(d, n), -n) == d
  {
    DayNumberInjective(AddDays(AddDays(d, n), -n), d);
  }

  const UnixEpochDay: int := 719163

  /** The anchors the rest of the model relies on agree with the calendar:
      1970-01-01 is day 719163 and a Thursday. */
  lemma UnixEpochAnchor()
    ensures Valid(Date(1970, 1, 1))
    ensures DayNumber(Date(1970, 1, 1)) == UnixEpochDay
    ensures WeekdayOf(Date(1970, 1, 1)) == Thu
  {
  }
}

=== FILE: events.dfy ===
/** Schedule events as the agenda holds them (`Vec<RawEvent>` sorted by
    start time) and the slice searches it runs over them. */
module Events {
  /** A `RawEvent` reduced to its two `u64` Unix timestamps. */
  datatype Event = Event(start: nat, end: nat)

  predicate SortedByStart(events: seq<Event>) {
    forall i, j :: 0 <= i < j < |events| ==> events[i].start <= events[j].start
  }

  /** The two answers of `binary_search_by_key`: `Ok(index)` of an element
      with the key, or `Err(index)` where the key would be inserted. */
  datatype SearchResult = Found(index: nat) | NotFound(index: nat)

  /** `events.binary_search_by_key(&key, |e| e.start_unixtime)` with the
      probing of the Rust 1.52 to 1.81 standard library: probe the middle of
      [lo, hi), return the first probe that matches, else the insertion
      point. Other releases may return another index among equal keys. */
  function BinarySearch(events: seq<Event>, key: nat): (r: SearchResult)
    requires SortedByStart(events)
    ensures r.Found? ==> r.index < |events| && events[r.index].start == key
    ensures r.NotFound? ==>
              && r.index <= |events|
              && (forall i :: 0 <= i < r.index ==> events[i].start < key)
              && (forall i :: r.index <= i < |events| ==> events[i].start > key)
  {
    SearchRange(events, key, 0, |events|)
  }

  function SearchRange(events: seq<Event>, key: nat, lo: nat, hi: nat): (r: SearchResult)
    requires SortedByStart(events) && lo <= hi <= |events|
    requires forall i :: 0 <= i < lo ==> events[i].start < key
    requires forall i :: hi <= i < |events| ==> events[i].start > key
    ensures r.Found? ==> lo <= r.index < hi && events[r.index].start == key
    ensures r.NotFound? ==>
              && lo <= r.index <= hi
              && (forall i :: 0 <= i < r.index ==> events[i].start < key)
              && (forall i :: r.index <= i < |events| ==> events[i].start > key)
    decreases hi - lo
  {
    if lo >= hi then NotFound(lo)
    else
      var mid := lo + (hi - lo) / 2;
      if events[mid].start < key then SearchRange(events, key, mid + 1, hi)
      else if events[mid].start > key then SearchRange(events, key, lo, mid)
      else Found(mid)
  }

  /** `partition_point(|e| e.start_unixtime < key)`: the length of the
      leading run of events starting before `key`. */
  function LowerBound(events: seq<Event>, key: nat): (r: nat)
    ensures r <= |events|
  {
    if events == [] || events[0].start >= key then 0
    else 1 + LowerBound(events[1..], key)
  }

  /** In a list sorted by start, `LowerBound` splits the events starting
      before `key` from those starting at or after it. */
  lemma {:induction false} LowerBoundSpec(events: seq<Event>, key: nat)
    requires SortedByStart(events)
    ensures forall i :: 0 <= i < LowerBound(events, key) ==> events[i].start < key
    ensures forall i :: LowerBound(events, key) <= i < |events| ==> events[i].start >= key
  {
    if events != [] && events[0].start < key {
      LowerBoundSpec(events[1..], key);
      forall i | 1 <= i < |events|
        ensures events[i] == events[1..][i - 1]
      {
      }
    }
  }

  /** A miss of the binary search reports the lower bound. */
  lemma NotFoundIsLowerBound(events: seq<Event>, key: nat)
    requires SortedByStart(events) && BinarySearch(events, key).NotFound?
    ensures BinarySearch(events, key).index == LowerBound(events, key)
  {
    LowerBoundSpec(events, key);
    var i := BinarySearch(events, key).index;
    var l := LowerBound(events, key);
    assert i < |events| ==> events[i].start > key;
    assert l < |events| ==> events[l].start >= key;
  }

  /** The binary search finds a match exactly when some event starts at the key. */
  lemma FoundIffPresent(events: seq<Event>, key: nat)
    requires SortedByStart(events)
    ensures BinarySearch(events, key).Found? <==> exists i :: 0 <= i < |events| && events[i].start == key
  {
    if BinarySearch(events, key).NotFound? {
      forall i | 0 <= i < |events|
        ensures events[i].start != key
      {
        if i < BinarySearch(events, key).index {
        }
      }
    }
  }

  /** The events from index `from` on, up to the first that starts after
      `limit`: the `while let Some(e) = events.get(idx)` loop that breaks on
      `e.start_unixtime > limit`. */
  function TakeUntil(events: seq<Event>, from: nat, limit: nat): (r: seq<Event>)
    requires from <= |events|
    ensures |r| <= |events| - from
    decreases |events| - from
  {
    if from == |events| || events[from].start > limit then []
    else [events[from]] + TakeUntil(events, from + 1, limit)
  }

  /** `TakeUntil` returns the run of events from `from` that start no later
      than `limit`, stopping at the first that starts after it. */
  lemma {:induction false} TakeUntilSpec(events: seq<Event>, from: nat, limit: nat)
    requires from <= |events|
    ensures var r := TakeUntil(events, from, limit);
            && r == events[from..from + |r|]
            && (forall i :: from <= i < from + |r| ==> events[i].start <= limit)
            && (from + |r| < |events| ==> events[from + |r|].start > limit)
    decreases |events| - from
  {
    if from < |events| && events[from].start <= limit {
      TakeUntilSpec(events, from + 1, limit);
    }
  }

  /** The events starting within [lo, hi], in list order. */
  function StartingWithin(events: seq<Event>, lo: nat, hi: nat): seq<Event> {
    if events == [] then []
    else
      var rest := StartingWithin(events[1..], lo, hi);
      if lo <= events[0].start <= hi then [events[0]] + rest else rest
  }

  /** `StartingWithin` keeps exactly the events starting within [lo, hi]. */
  lemma {:induction false} StartingWithinMembers(events: seq<Event>, lo: nat, hi: nat)
    ensures forall e :: e in StartingWithin(events, lo, hi) <==> e in events && lo <= e.start <= hi
  {
    if events != [] {
      StartingWithinMembers(events[1..], lo, hi);
      assert events == [events[0]] + events[1..];
    }
  }

  /** The filter distributes over concatenation. */
  lemma {:induction false} StartingWithinAppend(x: seq<Event>, y: seq<Event>, lo: nat, hi: nat)
    ensures StartingWithin(x + y, lo, hi) == StartingWithin(x, lo, hi) + StartingWithin(y, lo, hi)
  {
    if x == [] {
      assert x + y == y;
    } else {
      assert (x + y)[1..] == x[1..] + y;
      StartingWithinAppend(x[1..], y, lo, hi);
    }
  }

  /** Nothing is dropped from a list whose events all start within [lo, hi]. */
  lemma {:induction false} StartingWithinAll(x: seq<Event>, lo: nat, hi: nat)
    requires forall i :: 0 <= i < |x| ==> lo <= x[i].start <= hi
    ensures StartingWithin(x, lo, hi) == x
  {
    if x != [] {
      StartingWithinAll(x[1..], lo, hi);
    }
  }

  /** Everything is dropped from a list whose events all start outside [lo, hi]. */
  lemma {:induction false} StartingWithinNone(x: seq<Event>, lo: nat, hi: nat)
    requires forall i :: 0 <= i < |x| ==> x[i].start < lo || x[i].start > hi
    ensures StartingWithin(x, lo, hi) == []
  {
    if x != [] {
      StartingWithinNone(x[1..], lo, hi);
    }
  }
}

=== FILE: names.dfy ===
/** The fixed French label tables of the agenda (`format_day`) and of the
    month picker header, before translation. */
module Names {
  import opened Options
  import opened Dates

  function DayName(w: Weekday): (r: string)
    ensures |r| > 0 && NoSpace(r)
  {
    match w
    case Mon => "Lundi"
    case Tue => "Mardi"
    case Wed => "Mercredi"
    case Thu => "Jeudi"
    case Fri => "Vendredi"
    case Sat => "Samedi"
    case Sun => "Dimanche"
  }

  /** The month-name table; any other month hits `unreachable!()`, a panic. */
  function MonthName(m: int): (r: Option<string>)
    ensures r.Some? <==> 1 <= m <= 12
    ensures r.Some? ==> |r.value| > 0 && NoSpace(r.value)
  {
    match m
    case 1 => Some("Janvier")
    case 2 => Some("Février")
    case 3 => Some("Mars")
    case 4 => Some("Avril")
    case 5 => Some("Mai")
    case 6 => Some("Juin")
    case 7 => Some("Juillet")
    case 8 => Some("Août")
    case 9 => Some("Septembre")
    case 10 => Some("Octobre")
    case 11 => Some("Novembre")
    case 12 => Some("Décembre")
    case _ => None
  }

  predicate NoSpace(s: string) {
    forall i :: 0 <= i < |s| ==> s[i] != ' '
  }

  predicate IsDigit(c: char) {
    '0' <= c <= '9'
  }

  predicate AllDigits(s: string) {
    forall i :: 0 <= i < |s| ==> IsDigit(s[i])
  }

  function DigitChar(n: nat): (c: char)
    requires n < 10
    ensures IsDigit(c)
  {
    "0123456789"[n]
  }

  function DigitValue(c: char): (n: nat)
    requires IsDigit(c)
    ensures n < 10
  {
    (c as int - '0' as int) as nat
  }

  /** Decimal rendering of an unsigned integer, as `{}` formats a `u32`. */
  function NatToString(n: nat): (s: string)
    ensures |s| > 0 && AllDigits(s)
  {
    if n < 10 then [DigitChar(n)] else NatToString(n / 10) + [DigitChar(n % 10)]
  }

  function ParseNat(s: string): nat
    requires AllDigits(s)
  {
    if |s| == 0 then 0 else 10 * ParseNat(s[..|s| - 1]) + DigitValue(s[|s| - 1])
  }

  lemma {:induction false} ParseNatToString(n: nat)
    ensures ParseNat(NatToString(n)) == n
  {
    var s := NatToString(n);
    if n >= 10 {
      ParseNatToString(n / 10);
      assert s[..|s| - 1] == NatToString(n / 10);
    }
  }

  /** `format_day`: the weekday name, a space, then the day of the month. */
  function FormatDay(w: Weekday, day: nat): (s: string)
    ensures |DayName(w)| < |s|
    ensures s[..|DayName(w)|] == DayName(w) && s[|DayName(w)|] == ' '
    ensures AllDigits(s[|DayName(w)| + 1..]) && ParseNat(s[|DayName(w)| + 1..]) == day
  {
    ParseNatToString(day);
    var s := DayName(w) + " " + NatToString(day);
    assert s[|DayName(w)| + 1..] == NatToString(day);
    s
  }

  lemma DayNameNoSpace(w: Weekday)
    ensures NoSpace(DayName(w))
  {
    match w
    case Mon => case Tue => case Wed => case Thu => case Fri => case Sat => case Sun =>
  }

  lemma DayNamesDistinct(a: Weekday, b: Weekday)
    requires DayName(a) == DayName(b)
    ensures a == b
  {
  }

  /** Two weekdays or two days of the month never share a label. */
  lemma FormatDayInjective(w1: Weekday, d1: nat, w2: Weekday, d2: nat)
    requires FormatDay(w1, d1) == FormatDay(w2, d2)
    ensures w1 == w2 && d1 == d2
  {
    var s := FormatDay(w1, d1);
    var n1, n2 := DayName(w1), DayName(w2);
    DayNameNoSpace(w1);
    DayNameNoSpace(w2);
    assert n1 == s[..|n1|] == n2;
    DayNamesDistinct(w1, w2);
  }

  /** Twelve different headers for the twelve months. */
  lemma MonthNamesDistinct(m1: int, m2: int)
    requires 1 <= m1 <= 12 && 1 <= m2 <= 12
    requires MonthName(m1) == MonthName(m2)
    ensures m1 == m2
  {
  }

  /** Decimal rendering of a signed integer, as `{}` formats an `i32`. */
  function IntToString(n: int): (s: string)
    ensures |s| > 0
  {
    if n < 0 then "-" + NatToString(-n) else NatToString(n)
  }

  /** The strings `IntToString` produces: digits, with a leading minus
      sign for a negative number. */
  predicate IntSyntax(s: string) {
    if |s| > 0 && s[0] == '-' then |s| > 1 && AllDigits(s[1..]) else AllDigits(s)
  }

  function ParseInt(s: string): int
    requires IntSyntax(s)
  {
    if |s| > 0 && s[0] == '-' then -(ParseNat(s[1..]) as int) else ParseNat(s)
  }

  lemma ParseIntToString(n: int)
    ensures IntSyntax(IntToString(n)) && ParseInt(IntToString(n)) == n
  {
    var t := NatToString(if n < 0 then -n else n);
    ParseNatToString(if n < 0 then -n else n);
    if n < 0 {
      NegativeSyntax(t);
    } else {
      assert IsDigit(t[0]);
    }
  }

  lemma NegativeSyntax(t: string)
    requires |t| > 0 && AllDigits(t)
    ensures IntSyntax("-" + t) && ParseInt("-" + t) == -(ParseNat(t) as int)
  {
    assert ("-" + t)[1..] == t;
  }

  /** The month picker header, `format!("{} {}", month_name, year)`; a
      month outside 1..12 hits `unreachable!()`. The header starts with
      the month's name and ends with the year written out. */
  function MonthTitle(month: int, year: int): (r: Option<string>)
    ensures r.Some? <==> 1 <= month <= 12
    ensures r.Some? ==>
              var name := MonthName(month).value;
              && |name| < |r.value|
              && r.value[..|name|] == name && r.value[|name|] == ' '
              && IntSyntax(r.value[|name| + 1..]) && ParseInt(r.value[|name| + 1..]) == year
  {
    match MonthName(month)
    case None => None
    case Some(name) =>
      var s := name + " " + IntToString(year);
      assert s[|name| + 1..] == IntToString(year);
      ParseIntToString(year);
      Some(s)
  }

  /** Different months or years get different headers. */
  lemma MonthTitleInjective(m1: int, y1: int, m2: int, y2: int)
    requires 1 <= m1 <= 12 && 1 <= m2 <= 12
    requires MonthTitle(m1, y1) == MonthTitle(m2, y2)
    ensures m1 == m2 && y1 == y2
  {
    var s := MonthTitle(m1, y1).value;
    var n1, n2 := MonthName(m1).value, MonthName(m2).value;
    assert n1 == s[..|n1|] == n2;
    MonthNamesDistinct(m1, m2);
  }
}

=== FILE: options.dfy ===
/** The optional value used wherever the agenda or picker code has an `Option` or
    where an operation can panic (`None` then stands for the panic). */
module Options {

  datatype Option<+T> = None | Some(value: T)

}

=== FILE: sortable.dfy ===
/** A drag-and-drop sortable list: the permutation it displays, the reorder
    it computes when a drag is released, the hit test that starts a drag and
    the way the other items make room while one is dragged. Screen
    coordinates are integers. */
module Sortable {
  import opened Options

  /** A bounding client rectangle, as read from the page. */
  datatype Rect = Rect(left: int, top: int, right: int, bottom: int)

  /** A drag in progress: the dragged item, the pointer's y when it was
      grabbed, and the vertical centre of every item at that moment. */
  datatype Drag = Drag(item: nat, y: int, centers: seq<int>)

  /** `order[p]` is the item shown at position `p`; `reloadId` changes on
      every reorder so the page redraws the items at rest. */
  datatype Sortable = Sortable(itemCount: nat, order: seq<nat>, reloadId: nat, dragged: Option<Drag>)

  datatype Msg = ChangeOrder(newOrder: seq<nat>)

  /** The state after a handler ran and the `ChangeOrder` it queued, if any. */
  datatype Outcome = Outcome(state: Sortable, sent: Option<Msg>)

  /** Integer `/ 2` on `i32`, which truncates toward zero. */
  function Div2(n: int): (r: int)
    ensures 0 <= n ==> 0 <= n - 2 * r <= 1
    ensures n < 0 ==> -1 <= n - 2 * r <= 0
  {
    if n >= 0 then n / 2 else -((-n) / 2)
  }

  function Height(r: Rect): int
  {
    r.bottom - r.top
  }

  /** The key a release sorts by: `(top + height) / 2`. */
  function SortKey(r: Rect): int
  {
    Div2(r.top + Height(r))
  }

  /** The centre a grab records: `(bottom + top) / 2`. */
  function Center(r: Rect): int
  {
    Div2(r.bottom + r.top)
  }

  /** With integer coordinates the sort key is half the bottom edge, not the
      centre: the release orders items by where they end. */
  lemma SortKeyIsHalfBottom(r: Rect)
    ensures 2 * SortKey(r) == r.bottom || 2 * SortKey(r) == r.bottom - 1 || 2 * SortKey(r) == r.bottom + 1
    ensures r.bottom >= 0 ==> SortKey(r) == r.bottom / 2
  {
    assert r.top + Height(r) == r.bottom;
  }

  function Keys(rects: seq<Rect>): (keys: seq<int>)
    ensures |keys| == |rects|
  {
    seq(|rects|, i requires 0 <= i < |rects| => SortKey(rects[i]))
  }

  // ----- Permutations of 0..n-1 -----

  function Identity(n: nat): (r: seq<nat>)
    ensures |r| == n && forall i :: 0 <= i < n ==> r[i] == i
  {
    seq(n, i => i)
  }

  /** `order` lists each of 0..n-1 exactly once. */
  ghost predicate IsPermutation(order: seq<nat>, n: nat)
  {
    multiset(order) == multiset(Identity(n))
  }

  lemma {:induction false} IdentityCounts(n: nat)
    ensures forall v: nat :: multiset(Identity(n))[v] == (if v < n then 1 else 0)
  {
    if n > 0 {
      IdentityCounts(n - 1);
      assert Identity(n) == Identity(n - 1) + [n - 1];
      assert multiset(Identity(n)) == multiset(Identity(n - 1)) + multiset{(n - 1) as nat};
      forall v: nat
        ensures multiset(Identity(n))[v] == (if v < n then 1 else 0)
      {
        assert multiset(Identity(n))[v] == multiset(Identity(n - 1))[v] + multiset{(n - 1) as nat}[v];
      }
    }
  }

  /** A permutation of 0..n-1 has length n, holds every index below n, holds
      nothing else, and holds no index twice. */
  lemma PermutationFacts(order: seq<nat>, n: nat)
    requires IsPermutation(order, n)
    ensures |order| == n
    ensures forall k :: 0 <= k < n ==> k in order
    ensures forall i :: 0 <= i < |order| ==> order[i] < n
    ensures forall i, j :: 0 <= i < j < |order| ==> order[i] != order[j]
  {
    IdentityCounts(n);
    assert |order| == |multiset(order)| == |multiset(Identity(n))| == n;
    forall k | 0 <= k < n
      ensures k in order
    {
      assert multiset(order)[k] == 1;
    }
    forall i | 0 <= i < |order|
      ensures order[i] < n
    {
      assert multiset(order)[order[i]] > 0;
    }
    forall i, j | 0 <= i < j < |order|
      ensures order[i] != order[j]
    {
      var v := order[i];
      assert order == order[..i] + [v] + order[i + 1..j] + [order[j]] + order[j + 1..];
      assert multiset(order)[v] >= 1 + multiset([order[j]])[v];
    }
  }

  // ----- The stable sort of a release -----

  /** Item `a` comes before item `b`: a smaller key, or the same key and a
      smaller index (the sort is stable and starts from index order). */
  predicate Before(keys: seq<int>, a: nat, b: nat)
    requires a < |keys| && b < |keys|
  {
    keys[a] < keys[b] || (keys[a] == keys[b] && a < b)
  }

  predicate InRange(keys: seq<int>, s: seq<nat>)
  {
    forall i :: 0 <= i < |s| ==> s[i] < |keys|
  }

  /** Every earlier entry of `s` comes before every later one. */
  predicate Ordered(keys: seq<int>, s: seq<nat>)
  {
    InRange(keys, s) && forall i, j :: 0 <= i < j < |s| ==> Before(keys, s[i], s[j])
  }

  function Insert(keys: seq<int>, x: nat, s: seq<nat>): (r: seq<nat>)
    requires x < |keys| && InRange(keys, s)
    ensures multiset(r) == multiset(s) + multiset{x}
    ensures InRange(keys, r)
    decreases |s|
  {
    if s == [] then [x]
    else if Before(keys, x, s[0]) then [x] + s
    else
      assert s == [s[0]] + s[1..];
      [s[0]] + Insert(keys, x, s[1..])
  }

  lemma {:induction false} InsertOrdered(keys: seq<int>, x: nat, s: seq<nat>)
    requires x < |keys| && Ordered(keys, s) && x !in s
    ensures Ordered(keys, Insert(keys, x, s))
    decreases |s|
  {
    if s == [] {
    } else if Before(keys, x, s[0]) {
      var r := [x] + s;
      forall i, j | 0 <= i < j < |r|
        ensures Before(keys, r[i], r[j])
      {
        if i == 0 && j > 1 {
          assert Before(keys, s[0], s[j - 1]);
        }
      }
    } else {
      var t := Insert(keys, x, s[1..]);
      OrderedTail(keys, s);
      InsertOrdered(keys, x, s[1..]);
      HeadStaysFirst(keys, x, s);
      var r := [s[0]] + t;
      forall i, j | 0 <= i < j < |r|
        ensures Before(keys, r[i], r[j])
      {
        if i == 0 {
          assert r[j] == t[j - 1] && t[j - 1] in t;
        } else {
          assert r[i] == t[i - 1] && r[j] == t[j - 1] && Before(keys, t[i - 1], t[j - 1]);
        }
      }
    }
  }

  /** When `x` goes after the head, the head comes before everything the
      insertion into the tail produces. */
  lemma HeadStaysFirst(keys: seq<int>, x: nat, s: seq<nat>)
    requires x < |keys| && Ordered(keys, s) && x !in s && s != [] && !Before(keys, x, s[0])
    ensures forall y :: y in Insert(keys, x, s[1..]) ==> y < |keys| && Before(keys, s[0], y)
  {
    var t := Insert(keys, x, s[1..]);
    forall y | y in t
      ensures y < |keys| && Before(keys, s[0], y)
    {
      var j :| 0 <= j < |t| && t[j] == y;
      assert t[j] in multiset(t);
      if t[j] != x {
        assert t[j] in multiset(s[1..]);
        var m :| 0 <= m < |s[1..]| && s[1..][m] == t[j];
        assert s[m + 1] == t[j];
      }
    }
  }

  /** Indices 0..n-1 inserted one by one: the stable sort by key. */
  function SortIndices(keys: seq<int>, n: nat): (r: seq<nat>)
    requires n <= |keys|
    ensures IsPermutation(r, n) && Ordered(keys, r)
  {
    if n == 0 then []
    else
      var prev := SortIndices(keys, n - 1);
      assert Identity(n) == Identity(n - 1) + [n - 1];
      assert n - 1 !in multiset(Identity(n - 1));
      InsertOrdered(keys, n - 1, prev);
      Insert(keys, n - 1, prev)
  }

  /** Two orders that hold the same items and both respect `Before` are the
      same order: the sort's contract pins its result down. */
  lemma {:induction false} OrderedUnique(keys: seq<int>, a: seq<nat>, b: seq<nat>)
    requires Ordered(keys, a) && Ordered(keys, b) && multiset(a) == multiset(b)
    ensures a == b
    decreases |a|
  {
    assert |a| == |multiset(a)| == |multiset(b)| == |b|;
    if |a| > 0 {
      SameHead(keys, a, b);
      OrderedTail(keys, a);
      OrderedTail(keys, b);
      assert multiset(a) == multiset{a[0]} + multiset(a[1..]) by {
        assert a == [a[0]] + a[1..];
      }
      assert multiset(b) == multiset{b[0]} + multiset(b[1..]) by {
        assert b == [b[0]] + b[1..];
      }
      assert multiset(a[1..]) == multiset(a) - multiset{a[0]};
      assert multiset(b[1..]) == multiset(b) - multiset{b[0]};
      OrderedUnique(keys, a[1..], b[1..]);
      assert a == [a[0]] + a[1..] && b == [b[0]] + b[1..];
    }
  }

  /** The first entry of an ordered sequence comes before all the others, so
      two ordered sequences with the same items start alike. */
  lemma SameHead(keys: seq<int>, a: seq<nat>, b: seq<nat>)
    requires Ordered(keys, a) && Ordered(keys, b) && multiset(a) == multiset(b) && |a| > 0 && |b| > 0
    ensures a[0] == b[0]
  {
    assert a[0] in multiset(b) && b[0] in multiset(a);
    HeadFirst(keys, a, b[0]);
    HeadFirst(keys, b, a[0]);
  }

  lemma HeadFirst(keys: seq<int>, a: seq<nat>, x: nat)
    requires Ordered(keys, a) && x in a
    ensures x < |keys| && (x == a[0] || Before(keys, a[0], x))
  {
    var i :| 0 <= i < |a| && a[i] == x;
    if i > 0 {
      assert Before(keys, a[0], a[i]);
    }
  }

  lemma OrderedTail(keys: seq<int>, a: seq<nat>)
    requires Ordered(keys, a) && |a| > 0
    ensures Ordered(keys, a[1..])
  {
    forall i, j | 0 <= i < j < |a| - 1
      ensures Before(keys, a[1..][i], a[1..][j])
    {
      assert a[1..][i] == a[i + 1] && a[1..][j] == a[j + 1];
    }
  }

  /** The order a release produces: the items sorted by key, stably. */
  function ReleaseOrder(rects: seq<Rect>): (order: seq<nat>)
    ensures IsPermutation(order, |rects|)
    ensures forall p, q :: 0 <= p < q < |order| ==>
              var a := order[p]; var b := order[q];
              a < |rects| && b < |rects| &&
              (SortKey(rects[a]) < SortKey(rects[b]) || (SortKey(rects[a]) == SortKey(rects[b]) && a < b))
  {
    var r := SortIndices(Keys(rects), |rects|);
    assert forall p, q :: 0 <= p < q < |r| ==> Before(Keys(rects), r[p], r[q]);
    r
  }

  /** Any permutation sorted stably by key is the release order. */
  lemma StableSortIsReleaseOrder(rects: seq<Rect>, order: seq<nat>)
    requires IsPermutation(order, |rects|)
    requires forall p, q :: 0 <= p < q < |order| ==>
               var a := order[p]; var b := order[q];
               a < |rects| && b < |rects| &&
               (SortKey(rects[a]) < SortKey(rects[b]) || (SortKey(rects[a]) == SortKey(rects[b]) && a < b))
    ensures order == ReleaseOrder(rects)
  {
    var keys := Keys(rects);
    PermutationFacts(order, |rects|);
    assert Ordered(keys, order);
    var r := SortIndices(keys, |rects|);
    OrderedUnique(keys, order, r);
  }

  // ----- The component -----

  /** A fresh list shows the items in their given order. */
  function Create(itemCount: nat): (s: Sortable)
    ensures s.itemCount == itemCount && s.reloadId == 0 && s.dragged.None?
    ensures |s.order| == itemCount && forall p :: 0 <= p < itemCount ==> s.order[p] == p
  {
    Sortable(itemCount, Identity(itemCount), 0, None)
  }

  ghost predicate ValidState(s: Sortable)
  {
    && IsPermutation(s.order, s.itemCount)
    && (s.dragged.Some? ==> s.dragged.value.item < s.itemCount && |s.dragged.value.centers| == s.itemCount)
  }

  lemma CreateValid(itemCount: nat)
    ensures ValidState(Create(itemCount))
  {
    assert Create(itemCount).order == Identity(itemCount);
  }

  /** `release_drag`: only with a drag in progress, which it clears; it then
      asks for the items in release order. `rects[i]` is item i's rectangle. */
  function Release(s: Sortable, rects: seq<Rect>): (r: Outcome)
    requires |rects| == s.itemCount
    ensures r.state == s.(dragged := None)
    ensures r.sent.Some? <==> s.dragged.Some?
    ensures r.sent.Some? ==> r.sent.value == ChangeOrder(ReleaseOrder(rects))
  {
    if s.dragged.Some? then Outcome(s.(dragged := None), Some(ChangeOrder(ReleaseOrder(rects))))
    else Outcome(s, None)
  }

  /** The `ChangeOrder` arm: the new order replaces the old one and the
      reload counter moves on by one. */
  function Update(s: Sortable, msg: Msg): (r: Sortable)
    ensures r.order == msg.newOrder && r.reloadId == s.reloadId + 1
    ensures r.itemCount == s.itemCount && r.dragged == s.dragged
  {
    match msg
    case ChangeOrder(order) => s.(order := order, reloadId := s.reloadId + 1)
  }

  /** Releasing a drag and applying the order it sends leaves a valid state
      with no drag, the items sorted stably by key and one more reload. */
  lemma ReleaseThenUpdate(s: Sortable, rects: seq<Rect>)
    requires ValidState(s) && |rects| == s.itemCount && s.dragged.Some?
    ensures var out := Release(s, rects);
            var t := Update(out.state, out.sent.value);
            && ValidState(t) && t.dragged.None? && t.reloadId == s.reloadId + 1
            && t.order == ReleaseOrder(rects)
  {
  }

  predicate Inside(r: Rect, x: int, y: int)
  {
    r.left <= x <= r.right && r.top <= y <= r.bottom
  }

  /** The item under the pointer; when rectangles overlap the last one
      wins, as the scan keeps overwriting its answer. */
  function HitTest(rects: seq<Rect>, x: int, y: int): (r: Option<nat>)
    ensures r.None? <==> forall i :: 0 <= i < |rects| ==> !Inside(rects[i], x, y)
    ensures r.Some? ==> r.value < |rects| && Inside(rects[r.value], x, y)
    ensures r.Some? ==> forall j :: r.value < j < |rects| ==> !Inside(rects[j], x, y)
    decreases |rects|
  {
    if |rects| == 0 then None
    else if Inside(rects[|rects| - 1], x, y) then Some(|rects| - 1)
    else
      var h := HitTest(rects[..|rects| - 1], x, y);
      assert forall i :: 0 <= i < |rects| - 1 ==> rects[..|rects| - 1][i] == rects[i];
      h
  }

  function Centers(rects: seq<Rect>): (cs: seq<int>)
    ensures |cs| == |rects|
  {
    seq(|rects|, k requires 0 <= k < |rects| => Center(rects[k]))
  }

  /** A press first releases any drag still in progress, then starts a drag
      of the item under the pointer, if there is one. */
  function MouseDown(s: Sortable, rects: seq<Rect>, x: int, y: int): (r: Outcome)
    requires |rects| == s.itemCount
    ensures r.sent == Release(s, rects).sent
    ensures r.state.(dragged := None) == s.(dragged := None)
    ensures r.state.dragged.Some? <==> exists i :: 0 <= i < |rects| && Inside(rects[i], x, y)
    ensures r.state.dragged.Some? ==>
              var d := r.state.dragged.value;
              && d.item < |rects| && Inside(rects[d.item], x, y)
              && (forall j :: d.item < j < |rects| ==> !Inside(rects[j], x, y))
              && d.y == y && |d.centers| == |rects|
              && forall k :: 0 <= k < |rects| ==> d.centers[k] == Div2(rects[k].bottom + rects[k].top)
  {
    var released := Release(s, rects);
    match HitTest(rects, x, y)
    case Some(i) => Outcome(released.state.(dragged := Some(Drag(i, y, Centers(rects)))), released.sent)
    case None => released
  }

  /** Grabbing and releasing keep the state valid. */
  lemma MouseDownValid(s: Sortable, rects: seq<Rect>, x: int, y: int)
    requires ValidState(s) && |rects| == s.itemCount
    ensures ValidState(MouseDown(s, rects, x, y).state)
    ensures ValidState(Release(s, rects).state)
  {
  }

  // ----- Making room while dragging -----

  /** How the page restyles item `other` while an item is dragged. */
  datatype Shift =
    | Dragged              // the dragged item itself: left alone
    | ShiftUp(height: int)   // moved up by the dragged item's height
    | ShiftDown(height: int) // moved down by the dragged item's height
    | Rest                 // put back in place

  /** The first position holding `x`. */
  function Position(order: seq<nat>, x: nat): (p: nat)
    requires x in order
    ensures p < |order| && order[p] == x
    ensures forall q :: 0 <= q < p ==> order[q] != x
  {
    if order[0] == x then 0 else 1 + Position(order[1..], x)
  }

  /** The classification of one other item, from its position relative to
      the dragged item and its recorded centre: a later item whose centre
      the dragged bottom has passed moves up, an earlier one whose centre
      the dragged top has passed moves down. */
  function ShiftOf(order: seq<nat>, centers: seq<int>, item: nat, top: int, bottom: int, other: nat): (r: Shift)
    requires item in order && other in order && other < |centers|
    ensures r.Dragged? <==> other == item
    ensures r.ShiftUp? <==> Position(order, other) > Position(order, item) && bottom > centers[other]
    ensures r.ShiftDown? <==> Position(order, other) < Position(order, item) && top < centers[other]
    ensures r.ShiftUp? || r.ShiftDown? ==> r.height == bottom - top
  {
    var position := Position(order, item);
    var otherPosition := Position(order, other);
    if otherPosition == position then Dragged
    else if otherPosition > position && bottom > centers[other] then ShiftUp(bottom - top)
    else if otherPosition < position && top < centers[other] then ShiftDown(bottom - top)
    else Rest
  }

  /** What a pointer move does: the dragged item follows the pointer by
      `offset`, and `shifts[other]` restyles every item. `top` and `bottom`
      are the dragged item's edges once moved. */
  datatype Move = Move(offset: int, shifts: seq<Shift>)

  function MouseMove(s: Sortable, clientY: int, top: int, bottom: int): (r: Option<Move>)
    requires ValidState(s)
    ensures r.Some? <==> s.dragged.Some?
    ensures r.Some? ==> r.value.offset == clientY - s.dragged.value.y && |r.value.shifts| == s.itemCount
    ensures r.Some? ==>
              var d := s.dragged.value;
              d.item in s.order &&
              forall k :: 0 <= k < s.itemCount ==>
                k in s.order && r.value.shifts[k] == ShiftOf(s.order, d.centers, d.item, top, bottom, k)
  {
    match s.dragged
    case None => None
    case Some(d) =>
      PermutationFacts(s.order, s.itemCount);
      Some(Move(clientY - d.y,
                seq(s.itemCount, other requires 0 <= other < s.itemCount =>
                      ShiftOf(s.order, d.centers, d.item, top, bottom, other))))
  }

  /** With the centres increasing down the list, the items that move up are
      a block right after the dragged item (at position `pos`), and those
      that move down a block right before it. */
  lemma ShiftedItemsAreContiguous(s: Sortable, clientY: int, top: int, bottom: int, pos: nat)
    requires ValidState(s) && s.dragged.Some?
    requires pos < |s.order| && s.order[pos] == s.dragged.value.item
    requires var cs := s.dragged.value.centers;
             forall p, q :: 0 <= p < q < |s.order| ==> s.order[p] < |cs| && s.order[q] < |cs| && cs[s.order[p]] <= cs[s.order[q]]
    ensures var shifts := MouseMove(s, clientY, top, bottom).value.shifts;
            && (forall p, q :: pos < q < p < |s.order| && shifts[s.order[p]].ShiftUp? ==> shifts[s.order[q]].ShiftUp?)
            && (forall p, q :: 0 <= p < q < pos && shifts[s.order[p]].ShiftDown? ==> shifts[s.order[q]].ShiftDown?)
  {
    var d := s.dragged.value;
    var order := s.order;
    var shifts := MouseMove(s, clientY, top, bottom).value.shifts;
    PermutationFacts(order, s.itemCount);
    forall q | 0 <= q < |order|
      ensures Position(order, order[q]) == q
    {
      var p := Position(order, order[q]);
      assert order[p] == order[q];
    }
    forall p, q | pos < q < p < |order| && shifts[order[p]].ShiftUp?
      ensures shifts[order[q]].ShiftUp?
    {
      assert shifts[order[p]] == ShiftOf(order, d.centers, d.item, top, bottom, order[p]);
      assert shifts[order[q]] == ShiftOf(order, d.centers, d.item, top, bottom, order[q]);
    }
    forall p, q | 0 <= p < q < pos && shifts[order[p]].ShiftDown?
      ensures shifts[order[q]].ShiftDown?
    {
      assert shifts[order[p]] == ShiftOf(order, d.centers, d.item, top, bottom, order[p]);
      assert shifts[order[q]] == ShiftOf(order, d.centers, d.item, top, bottom, order[q]);
    }
  }
}
